=== FILE: README.md ===
# simple-prompt-manager in Dafny

This project models the core of simple-prompt-manager, a browser application that keeps a collection of text prompts, each with a title, a content and preset tags. It covers these parts:

- the prompt repository and the settings store;
- export and import of a JSON document, and its validation;
- the synchronisation of that document with a remote gist;
- the helpers the other parts use;
- the tag computations behind the settings and filter views.

Storage is a value. Every operation receives the stored data and returns the data held afterwards, together with its result. Whether a storage write succeeds is a boolean parameter. The clock and random digits are parameters too.

The project has these modules:

| file | module | models |
|---|---|---|
| common.dfy | Common | sequence helpers: filter, subsequence, first-occurrence dedup, radix-36 digits |
| js_values.dfy | JsValues | JSON values, truthiness, and the string built-ins `trim`, `toLowerCase` and `includes` |
| js_sort.dfy | JsSort | `Array.prototype.sort()` on strings |
| utils.dfy | Utils | the helper script |
| data.dfy | Data | the repository and the settings store |
| transfer.dfy | Transfer | export, import and validation |
| sync.dfy | Sync | the sync state, and the pull, push, bind and load flows |
| main_view.dfy | MainView | the tag computations of the main script |

Where the code and the design text disagree, the model follows the code:

- An import without merging reverses the order of the records, because each accepted record is put at the front. It also stamps every record with the import's time. So an export followed by an import, or a push followed by a pull, restores the same records in reverse order. It does not restore an identical list. `Transfer.ImportRoundTrip` and `Sync.PushThenPull` state the exact result.
- `addPrompt` rejects an empty title or content before trimming. A title of blanks is accepted and stored as the empty string (`Data.AddAcceptsBlankTitle`).
- The repository operations signal a missing id or a failed write with `null` or `false`, not with an error kind.

## Model

| member | source | states |
|---|---|---|
| Common.RadixDigitsRoundTrip | js/utils.js:10-12 | the base-36 digits that `toString(36)` writes for a time value read back as that value |
| Utils.GenerateId | js/utils.js:10-12 | an id is `prompt_`, then the clock in base 36, which reads back as the clock, then the random digits |
| Utils.TruncateText | js/utils.js:42-46 | a missing or empty text gives the empty string; a text within the limit comes back whole; a longer one keeps its first `length` characters, followed by an ellipsis |
| Utils.IsEmpty | js/utils.js:131-133 | a value is empty exactly when it is not a string or it is all blanks |
| Utils.UniqueArray | js/utils.js:140-143 | a non-array gives the empty list; an array gives its distinct elements, each once, in order of first appearance |
| Utils.FormatTime | js/utils.js:65-104 | the label buckets are exact: no time, just now, minutes, hours, days, or a calendar date once a week has passed |
| JsValues.TrimIdempotent | js/data.js:97-98 | trimming an already trimmed string changes nothing |
| JsValues.TrimDropsLeadingSpace | js/data.js:97-98 | a leading blank makes no difference to the trimmed text |
| JsValues.TrimStripsEnds | js/data.js:97-98 | the trimmed text is a middle slice of the string with only blanks before and after it |
| JsValues.TrimEmptyIff | js/utils.js:131-133 | a string trims to nothing exactly when all its characters are blanks |
| JsValues.ToLowerIdempotent | js/data.js:191-215 | lower-casing twice is the same as once |
| JsSort.SortEqualIff | js/main.js:111-112 | two arrays sort to the same array exactly when they hold the same strings equally often |
| Data.IndexOfId | js/data.js:127 | `findIndex` gives -1 exactly when no record has the id; otherwise it gives the first record with that id |
| Data.GetPromptById | js/data.js:78-81 | the result is absent exactly when no record has the id; otherwise it is the first record with that id |
| Data.AddPrompt | js/data.js:88-116 | success exactly when title and content are non-empty strings and the write succeeds; the new record goes first with trimmed fields and equal timestamps; failure leaves the collection unchanged |
| Data.AddThenGet | js/data.js:88-116 | a record just added is found by its id with its trimmed title and content, and it was created when it was last updated |
| Data.AddAcceptsBlankTitle | js/data.js:91-98 | a title of blanks passes the check and is stored empty |
| Data.UpdatePrompt | js/data.js:124-163 | success exactly when the id exists, no supplied title or content is blank, and the write succeeds; only the first record with the id changes; id and creation time are kept and the update time is now |
| Data.DeletePrompt | js/data.js:170-184 | success exactly when the id exists and the write succeeds; afterwards the collection is the stored one without the records of that id: same order, and every other record as often as before |
| Data.DeleteThenGet | js/data.js:78-184 | after a delete the id is no longer found, and every other id finds the same record as before |
| Data.SearchTerm | js/data.js:191-199 | a keyword that is not a string, or is blank, means no search; otherwise the term is the keyword lower-cased and then trimmed, and it is non-empty |
| Data.SearchPrompts | js/data.js:191-215 | no search term returns the whole collection; otherwise the records whose lower-cased title or content contains the term, in collection order, each as often as stored |
| Data.SearchIgnoresKeywordCase | js/data.js:191-215 | a keyword and its lower-case form give the same result |
| Data.FilterPromptsByTag | js/data.js:222-231 | an empty tag or `all` returns the whole collection; otherwise the records carrying the tag, in collection order, each as often as stored |
| Data.NormalizeTags | js/data.js:246-266 | the stored tag list holds distinct names, none of them blank; they are exactly the non-blank strings of the input, in the order of their first appearance; names are kept untrimmed |
| Data.SettingsFromValue | js/data.js:246-266 | an object with a `presetTags` array takes its normalised names, in the order of their first appearance; anything else gets the default tags; the version is kept or defaulted |
| Data.SettingsRoundTrip | js/data.js:246-266 | saving settings whose tags are already normal and reading them back gives the same settings |
| Data.SaveSettings | js/data.js:246-266 | the result reports the write; on success the stored settings are the input normalised as `SettingsFromValue` states, so their tags are distinct, non-blank and in first-appearance order; on failure the settings are unchanged |
| Data.UpdatePresetTags | js/data.js:282-295 | on success the version is kept and the tags are exactly the non-blank names given, each once, in the order they first appear; on failure nothing changes |
| Data.UpdatePresetTagsIdempotent | js/data.js:272-295 | saving back the tags an update stored leaves the settings as they are |
| Data.UpdateNormalPresetTags | js/data.js:272-295 | updating to a normal tag list and reading it back gives that list |
| Data.ResetSettings | js/data.js:301-303 | a successful reset restores the default settings; a failed one changes nothing |
| Transfer.ExportValue | js/data.js:309-330 | the exported document carries every record field, the settings, the export time and the version |
| Transfer.ExportData | js/data.js:309-330 | the exported document holds the stored records and settings, the time of the export and the version `1.0.0` |
| Transfer.ImportTags | js/data.js:401-402 | an imported record keeps exactly those of its tags that are current preset tags, in their order and each as often as given; no array means no tags |
| Transfer.Admit | js/data.js:404-411 | an admitted record has trimmed title and content and is stamped now; its id and creation time are kept when truthy and generated otherwise |
| Transfer.Classify | js/data.js:386-419 | a record with a falsy title or content is an error; one whose id is already known or whose title is taken is skipped; one whose title or content is not a string is an error; any other record is accepted |
| Transfer.Ingest | js/data.js:386-419 | every incoming record is counted exactly once; the accepted records are fresh records, and there are as many as the imported count |
| Transfer.ImportCollection | js/data.js:370-423 | a merge puts the accepted records in front of the existing ones and keeps those; a replacement keeps only the accepted records |
| Transfer.ImportData | js/data.js:370-448 | success exactly when the document is an object and, if it has a `prompts` array, the write succeeds; failure reports zero counts and changes nothing; settings are replaced only by a non-merging import that carries them |
| Transfer.ImportSettings | js/data.js:427-429 | only an import without merging whose `settings` value is truthy replaces the settings, with that value normalised; a failed settings write keeps the old ones |
| Transfer.ImportRoundTrip | js/data.js:309-448 | importing an export without merging accepts every record, restores them in reverse order with the import time, and restores the settings |
| Transfer.ImportAdmitsDuplicateIds | js/data.js:383-384 | a record repeating the id of a record accepted earlier in the same import is accepted too |
| Transfer.ImportAdmitsDuplicateTitles | js/data.js:388-399 | a title that differs from a stored one only by a leading blank is accepted and stored equal to it |
| Transfer.IngestKeepsTitlesDistinct | js/data.js:386-419 | when incoming titles are trimmed, the import never creates two records with one title |
| Transfer.ValidateImportData | js/data.js:455-483 | a document is valid exactly when it is an object with a non-empty `prompts` array whose every record has a truthy title and content |
| Transfer.ValidThenImportHasNoErrors | js/data.js:370-483 | a valid document with string titles and contents imports without errors |
| Transfer.ValidatedNumberTitleFailsImport | js/data.js:386-483 | a record with a numeric title passes validation but counts as an import error |
| Transfer.ExportValidates | js/data.js:309-483 | an export is valid exactly when the store is non-empty and every record has a non-empty title and content |
| Sync.GetSyncState | js/sync.js:29-39 | missing fields read as defaults; a missing device id is generated and written back, and an existing one is kept |
| Sync.SaveSyncState | js/sync.js:41-46 | the fields the patch names override the current state; the others keep their values; the whole state is written |
| Sync.SaveThenGet | js/sync.js:29-46 | reading the sync state after a save gives what the save wrote |
| Sync.SavePat | js/sync.js:48-58 | an empty token removes the stored one; any other is stored, and `getPat()` reads back exactly the token saved |
| Sync.NewDeviceId | js/sync.js:60-67 | a generated device id is `device_`, then the clock in base 36, which reads back as the clock, then at most six fraction digits |
| Sync.SetCredentials | js/sync.js:302-306 | a given token is stored trimmed; a given gist id is stored trimmed and every other sync field reads as before, with a missing device id filled in; the prompts never change |
| Sync.SetCredentialsThenGet | js/sync.js:29-46 | reading the sync state after setting a gist id gives the trimmed id and every other field as it read before |
| Sync.MapStatus | js/sync.js:270-281 | each status has its own label |
| Sync.FetchFor | js/sync.js:112-121 | the fetch asks for the bound gist and sends the stored ETag exactly when there is one |
| Sync.BuildPayload | js/sync.js:73-82 | the payload carries version 1, the time, the device id and the exported document |
| Sync.Pull | js/sync.js:193-218 | without a token and gist id nothing is fetched; "not modified" changes no data and records success; a fresh document replaces the local data exactly as an import does; a failure leaves the data and the syncing status in place |
| Sync.Push | js/sync.js:220-233 | without a token and gist id nothing is sent; otherwise the payload of the current data is sent and a success records the new ETag and time; the local data never changes |
| Sync.CreateAndBindGist | js/sync.js:246-253 | without a token nothing is sent; otherwise the payload is sent and a success binds the new gist with its ETag |
| Sync.BindThenPull | js/sync.js:112-253 | after a successful bind, the next pull fetches the new gist and sends the ETag the bind recorded, when there is one |
| Sync.ValidateBinding | js/sync.js:235-244 | it fails without a token and gist id; otherwise it succeeds exactly when the fetch succeeds, including "not modified" |
| Sync.InitOnLoad | js/sync.js:283-295 | an unconfigured load changes only the device id; otherwise it pulls, and a failed pull is recorded as an error with its message |
| Sync.InitOnLoadSettles | js/sync.js:283-295 | a configured load never leaves the status at syncing |
| Sync.PushThenPull | js/sync.js:193-233 | what one device pushes, another pulls: the pulled data is the pushed records, reversed and restamped, and the pushed settings |
| Sync.PushThenNotModified | js/sync.js:112-233 | after a push, the next pull sends the pushed ETag, and a "not modified" answer changes no data |
| MainView.AddTag | js/main.js:595-616 | a trimmed, non-blank tag that is not yet in the list is appended; a blank or already listed tag leaves the list unchanged; a list without repeats stays without repeats |
| MainView.AddTagIdempotent | js/main.js:595-616 | adding the same tag twice is the same as adding it once |
| MainView.RemovePresetTag | js/main.js:621-644 | a saved tag still in use is removed only after confirmation; otherwise every occurrence is removed and every other tag stays, in order and as often as before |
| MainView.AddThenRemove | js/main.js:595-644 | removing a tag just added restores the list |
| MainView.TagsOutside | js/main.js:657 | the deleted tags are the saved tags missing from the edited list, in saved order and each as often as saved |
| MainView.StripByIdMissesSharedId | js/main.js:665-675 | of two records sharing an id, the update by id strips the deleted tag from the first only |
| MainView.StripById | js/main.js:665-675 | the loop updating each record that loses a tag by its id keeps the number of records and their ids |
| MainView.StripDeletedTags | js/main.js:665-675 | every record keeps its position, id and creation time and loses exactly the deleted tags, keeping the other tags in order and as often as before; a record that loses a tag has trimmed title and content and is stamped now; records without deleted tags are unchanged |
| MainView.StripByIdAgrees | js/main.js:665-675 | when ids are unique, the update by id gives the same collection as the stripping by position |
| MainView.HandleSaveSettings | js/main.js:649-699 | the result is the settings write; the prompt writes happen first and stand whatever that write does; a failed settings write keeps the settings; a successful one stores the edited tags, normalised, in first-appearance order; with unique ids the prompts lose exactly the deleted tags; it reports how many tags were deleted |
| MainView.HandleSaveSettingsIntended | js/main.js:649-699 | the corrected handler: when the prompt writes succeed, every record keeps its id and loses exactly the tags that were saved but are missing from the edited list, keeping its other tags in order and as often as before; a record without such a tag is unchanged; a successful settings write stores the edited tags, normalised, in first-appearance order, and a failed one keeps the settings |
| MainView.HandleSaveSettingsAgrees | js/main.js:649-699 | with unique ids the handler as written and the corrected one give the same result |
| MainView.RefreshPromptList | js/main.js:224-244 | with `all` it is a plain search; with no keyword it is a plain tag filter; it never shows a record that is not stored |
| MainView.RefreshIsIntersection | js/main.js:224-244 | with a tag chosen, the list is the search applied to the tag filter |
| MainView.TagFilter | js/main.js:293-331 | `all` comes first and counts every record; the preset tags follow in order; every used tag appears once, counted by its occurrences across all records' tag lists |
| MainView.TagCountIsFilterLength | js/main.js:293-331 | when no record lists a tag twice, a tag's count equals the number of records the tag filter shows |
| MainView.HasUnsavedChanges | js/main.js:109-121 | the settings have unsaved changes exactly when the edited tags and the saved tags differ as multisets; the edited list is left sorted |

## Left out

- Browser storage and JSON text are not modelled. The stored data is a value, and JSON parsing and serialisation are the identity on `Value`. `safeJsonParse` and `deepClone` are left out for the same reason.
- A data write either succeeds or fails as a whole, through one `writeOk` flag per operation. Writes of the sync state and the token are taken to succeed.
- The HTTP transport is not modelled. This covers `fetchRemote`, `updateRemote`, `createPrivateGist` and `safeReadError`. Each flow receives the response as a value: a new document with its ETag, "not modified", or a failure message. The 404 and missing-file cases are failures with their message.
- The clock is one `now` per operation. The random digits of ids are parameters. An import takes one fresh id per record position.
- `getConfig`, the status display (`updateSyncStatusUI`), toasts and the DOM are left out. They read or show state without changing it. The confirmation dialog is a boolean parameter.
- `escapeHtml`, `debounce` and `getDataStats` are presentation or timing helpers and are left out.
- Utils.FormatTime: the calendar-date branch after a week is only a tag, because date formatting is locale-dependent.
- JsValues.ToLower: lower-cases ASCII letters only, because Unicode case mapping is not modelled.
- JsSort.Sort: compares characters as code points, which matches the UTF-16 order only outside surrogate pairs.
- Numbers are integers, so floating point, `NaN` and the SameValueZero rule of `Set` are not modelled.
- Record ids are compared by value. The code re-parses storage on every read, so it compares an object or array id by reference (`===` and `Set.prototype.has`), and such an id never matches. An import keeps any truthy id, so an import file can bring in such ids. For them the model finds, updates, deletes and skips records that the code would miss or accept.
- Data.UpdatePrompt: a patch can carry only title, content and tags. Other keys the original would merge into the record are not modelled.
- Stored tags are always lists of strings, as every writer in the code produces.
- Data.GetPresetTags: not modelled as a member. Its `|| DEFAULT_SETTINGS.presetTags` fallback can never apply, because every writer stores a list and a list is truthy even when empty. Reading the preset tags is therefore `settings.presetTags`.
- MainView.TagFilter: counts tags in a map, so a tag named like an `Object.prototype` member behaves like any other tag.
- Transfer.ValidateImportData: the `catch` branch is left out because no statement inside the `try` can throw on a parsed value.
- Utils.TruncateText: counts characters as code points, while `length` and `substring` count UTF-16 units, so the two differ on text outside the Basic Multilingual Plane.
- Settings: keep only `presetTags` and `version`. `saveSettings` spreads every key of its input into the stored object, and the other keys are not modelled.
- Sync.Pull: a fresh response whose payload is falsy fails with the bad-data message. In the code, `fetchRemote` fails to parse such a body first and reports that error instead (js/sync.js:157-158).
- MainView.HandleSaveSettings: one `promptsOk` flag covers every `updatePrompt` write of the loop, so a loop where some writes succeed and others fail is not modelled. With ids that are not unique, it states the kept length and ids, not which tags remain (see Findings).

## Findings

| source | as written | input that shows it | evidently intended | confidence | as-written member | corrected member |
|---|---|---|---|---|---|---|
| js/main.js:665-675 | saving settings strips deleted tags by calling `updatePrompt(prompt.id, …)`, which updates the first record with that id | two records with the same id, both tagged with a deleted tag, which an import can create (`Transfer.ImportAdmitsDuplicateIds`): the second keeps the deleted tag | every record loses the deleted tags | not executed | MainView.StripByIdMissesSharedId | MainView.HandleSaveSettingsIntended |

=== FILE: common.dfy ===
/**
  Generic helpers shared by every module of the model: an optional value and
  the ordered-sequence operations the JavaScript code reaches for through
  `Array.prototype.filter`, `Array.prototype.includes`, `new Set(...)` and
  string concatenation of decimal numbers.
 */
module Common {

  datatype Option<+T> = None | Some(value: T) {
    function GetOr(default: T): T {
      match this
      case Some(v) => v
      case None => default
    }
  }

  /** `r` is obtained from `s` by deleting elements, keeping the order of the rest. */
  ghost predicate Subseq<T>(r: seq<T>, s: seq<T>)
    decreases |s|
  {
    if |r| == 0 then true
    else if |s| == 0 then false
    else (r[0] == s[0] && Subseq(r[1..], s[1..])) || Subseq(r, s[1..])
  }

  /** No element occurs twice. */
  predicate NoDup<T(==)>(s: seq<T>) {
    forall i, j :: 0 <= i < j < |s| ==> s[i] != s[j]
  }

  /** Appending an element that does not occur keeps a sequence free of repetition. */
  lemma NoDupAppend<T>(s: seq<T>, x: T)
    requires NoDup(s) && x !in s
    ensures NoDup(s + [x])
  {
  }

  /** `Array.prototype.filter`: the elements satisfying `keep`, in their original order. */
  function Filter<T(!new)>(s: seq<T>, keep: T -> bool): (r: seq<T>)
    ensures |r| <= |s|
    ensures forall x :: x in r <==> x in s && keep(x)
    ensures Subseq(r, s)
    ensures (forall i :: 0 <= i < |s| ==> keep(s[i])) ==> r == s
  {
    if |s| == 0 then []
    else if keep(s[0]) then [s[0]] + Filter(s[1..], keep)
    else
      var r := Filter(s[1..], keep);
      assert Subseq(r, s[1..]);
      SubseqDropHead(r, s);
      r
  }

  /** Filtering keeps every element that passes exactly as often as it occurred, and no other. */
  lemma {:induction false} FilterCounts<T(!new)>(s: seq<T>, keep: T -> bool)
    ensures forall x :: multiset(Filter(s, keep))[x] == if keep(x) then multiset(s)[x] else 0
  {
    if |s| > 0 {
      var tail := Filter(s[1..], keep);
      FilterCounts(s[1..], keep);
      FilterCountStep(s, keep, tail, Filter(s, keep));
    }
  }

  /** One step of filtering keeps the counts of the kept elements and drops the others. */
  lemma FilterCountStep<T>(s: seq<T>, keep: T -> bool, tail: seq<T>, r: seq<T>)
    requires |s| > 0
    requires forall x :: multiset(tail)[x] == if keep(x) then multiset(s[1..])[x] else 0
    requires r == if keep(s[0]) then [s[0]] + tail else tail
    ensures forall x :: multiset(r)[x] == if keep(x) then multiset(s)[x] else 0
  {
    assert multiset(s) == multiset{s[0]} + multiset(s[1..]) by {
      assert s == [s[0]] + s[1..];
    }
    assert multiset(r) == if keep(s[0]) then multiset{s[0]} + multiset(tail) else multiset(tail);
  }

  lemma SubseqDropHead<T>(r: seq<T>, s: seq<T>)
    requires |s| > 0 && Subseq(r, s[1..])
    ensures Subseq(r, s)
  {
  }

  lemma {:induction false} SubseqRefl<T>(s: seq<T>)
    ensures Subseq(s, s)
  {
    if |s| > 0 {
      SubseqRefl(s[1..]);
    }
  }

  /** Filtering twice keeps exactly the elements that pass both tests, in order. */
  lemma {:induction false} FilterFilter<T(!new)>(s: seq<T>, a: T -> bool, b: T -> bool, both: T -> bool)
    requires forall x :: both(x) == (a(x) && b(x))
    ensures Filter(Filter(s, a), b) == Filter(s, both)
  {
    if |s| > 0 {
      FilterFilter(s[1..], a, b, both);
      if a(s[0]) {
        assert Filter(s, a) == [s[0]] + Filter(s[1..], a);
        assert Filter(s, a)[1..] == Filter(s[1..], a);
      }
    }
  }

  /** Two tests that agree on every element of `s` filter it identically. */
  lemma {:induction false} FilterCongruent<T(!new)>(s: seq<T>, a: T -> bool, b: T -> bool)
    requires forall i :: 0 <= i < |s| ==> a(s[i]) == b(s[i])
    ensures Filter(s, a) == Filter(s, b)
  {
    if |s| > 0 {
      FilterCongruent(s[1..], a, b);
    }
  }

  /** Filtering distributes over concatenation. */
  lemma {:induction false} FilterAppend<T(!new)>(s: seq<T>, t: seq<T>, keep: T -> bool)
    ensures Filter(s + t, keep) == Filter(s, keep) + Filter(t, keep)
  {
    if |s| == 0 {
      assert s + t == t;
    } else {
      assert (s + t)[1..] == s[1..] + t;
      FilterAppend(s[1..], t, keep);
    }
  }

  /** Filtering out an element that occurs makes the sequence shorter. */
  lemma {:induction false} FilterDropsSome<T(!new)>(s: seq<T>, keep: T -> bool, x: T)
    requires x in s && !keep(x)
    ensures |Filter(s, keep)| < |s|
  {
    if s[0] != x {
      FilterDropsSome(s[1..], keep, x);
    }
  }

  /** Index of the first occurrence of `x` in `s`; `s` must contain `x`. */
  function FirstIndex<T(==)>(s: seq<T>, x: T): (i: nat)
    requires x in s
    ensures i < |s| && s[i] == x
    ensures forall k :: 0 <= k < i ==> s[k] != x
  {
    if s[0] == x then 0 else 1 + FirstIndex(s[1..], x)
  }

  /** `FirstIndex` is the only position holding `x` with no `x` before it. */
  lemma FirstIndexIs<T>(s: seq<T>, x: T, i: nat)
    requires i < |s| && s[i] == x
    requires forall k :: 0 <= k < i ==> s[k] != x
    ensures FirstIndex(s, x) == i
  {
  }

  /**
    `[...new Set(s)]`: each distinct element once, at the position of its
    first occurrence (see `DedupFirstOrder`).
   */
  function Dedup<T(==,!new)>(s: seq<T>): (r: seq<T>)
    ensures NoDup(r)
    ensures forall x :: x in r <==> x in s
    ensures |r| <= |s|
  {
    if |s| == 0 then []
    else
      var init := s[..|s| - 1];
      var last := s[|s| - 1];
      var d := Dedup(init);
      assert forall x :: x in s <==> x in init || x == last;
      if last in d then d else d + [last]
  }

  /** The elements of `Dedup(s)` are ordered by their first occurrence in `s`. */
  lemma {:induction false} DedupFirstOrder<T(!new)>(s: seq<T>)
    ensures forall i, j :: 0 <= i < j < |Dedup(s)| ==> FirstIndex(s, Dedup(s)[i]) < FirstIndex(s, Dedup(s)[j])
  {
    if |s| > 0 {
      var init := s[..|s| - 1];
      var d := Dedup(init);
      DedupFirstOrder(init);
      DedupOrderInPrefix(init, s, d);
      if s[|s| - 1] !in d {
        AppendLastKeepsOrder(s, d, d + [s[|s| - 1]]);
      }
    }
  }

  /** First-occurrence order in a prefix is first-occurrence order in the whole sequence. */
  lemma DedupOrderInPrefix<T>(init: seq<T>, s: seq<T>, d: seq<T>)
    requires init <= s
    requires forall x :: x in d ==> x in init
    requires forall i, j :: 0 <= i < j < |d| ==> FirstIndex(init, d[i]) < FirstIndex(init, d[j])
    ensures forall x :: x in d ==> x in s
    ensures forall i, j :: 0 <= i < j < |d| ==> FirstIndex(s, d[i]) < FirstIndex(s, d[j])
  {
    forall x | x in d
      ensures x in s && FirstIndex(s, x) == FirstIndex(init, x)
    {
      FirstIndexPrefix(init, s, x);
    }
  }

  /** The last element, when new, comes after every element of the prefix. */
  lemma AppendLastKeepsOrder<T>(s: seq<T>, d: seq<T>, e: seq<T>)
    requires |s| > 0 && e == d + [s[|s| - 1]]
    requires forall x :: x in d <==> x in s[..|s| - 1]
    requires s[|s| - 1] !in d
    requires forall x :: x in d ==> x in s
    requires forall i, j :: 0 <= i < j < |d| ==> FirstIndex(s, d[i]) < FirstIndex(s, d[j])
    ensures forall x :: x in e ==> x in s
    ensures forall i, j :: 0 <= i < j < |e| ==> FirstIndex(s, e[i]) < FirstIndex(s, e[j])
  {
    PrefixBeforeLast(s, d);
    forall i, j | 0 <= i < j < |e|
      ensures FirstIndex(s, e[i]) < FirstIndex(s, e[j])
    {
      assert e[i] == d[i];
      if j < |d| {
        assert e[j] == d[j];
      } else {
        assert e[j] == s[|s| - 1];
      }
    }
  }

  /** Elements of the prefix first occur before a last element that is new. */
  lemma PrefixBeforeLast<T>(s: seq<T>, d: seq<T>)
    requires |s| > 0
    requires forall x :: x in d <==> x in s[..|s| - 1]
    requires s[|s| - 1] !in d
    ensures FirstIndex(s, s[|s| - 1]) == |s| - 1
    ensures forall i :: 0 <= i < |d| ==> d[i] in s && FirstIndex(s, d[i]) < |s| - 1
  {
    var init := s[..|s| - 1];
    FirstIndexOfNewLast(s);
    forall i | 0 <= i < |d|
      ensures d[i] in s && FirstIndex(s, d[i]) < |s| - 1
    {
      assert d[i] in d;
      FirstIndexPrefix(init, s, d[i]);
    }
  }

  /** An element that occurs only at the end first occurs there. */
  lemma FirstIndexOfNewLast<T>(s: seq<T>)
    requires |s| > 0 && s[|s| - 1] !in s[..|s| - 1]
    ensures FirstIndex(s, s[|s| - 1]) == |s| - 1
  {
    var i := FirstIndex(s, s[|s| - 1]);
    assert forall k :: 0 <= k < |s| - 1 ==> s[k] == s[..|s| - 1][k];
  }

  lemma FirstIndexPrefix<T>(init: seq<T>, s: seq<T>, x: T)
    requires init <= s && x in init
    ensures x in s && FirstIndex(s, x) == FirstIndex(init, x)
  {
    var i := FirstIndex(init, x);
    assert s[i] == x;
    var j := FirstIndex(s, x);
    assert j <= i;
  }

  /** A sequence without duplicates is its own deduplication. */
  lemma {:induction false} DedupOfNoDup<T(!new)>(s: seq<T>)
    requires NoDup(s)
    ensures Dedup(s) == s
  {
    if |s| > 0 {
      var init := s[..|s| - 1];
      assert NoDup(init);
      DedupOfNoDup(init);
      assert s[|s| - 1] !in init;
      assert init + [s[|s| - 1]] == s;
    }
  }

  /** Deduplicating keeps a duplicate-free prefix where it is. */
  lemma {:induction false} DedupKeepsPrefix<T(!new)>(a: seq<T>, b: seq<T>)
    requires NoDup(a)
    ensures |a| <= |Dedup(a + b)| && Dedup(a + b)[..|a|] == a
    decreases |b|
  {
    if |b| == 0 {
      assert a + b == a;
      DedupOfNoDup(a);
    } else {
      var init := b[..|b| - 1];
      DedupKeepsPrefix(a, init);
      assert (a + b)[..|a + b| - 1] == a + init;
    }
  }

  /** Decimal digits of `n`, as `String(n)` renders a non-negative integer. */
  function NatToString(n: nat): (r: string)
    ensures |r| > 0
    ensures forall i :: 0 <= i < |r| ==> '0' <= r[i] <= '9'
  {
    RadixDigits(n, 10)
  }

  /** The digit character for `d`: `0`-`9`, then `a`-`z`. */
  function Digit(d: nat): (c: char)
    requires d < 36
    ensures d < 10 ==> '0' <= c <= '9'
  {
    if d < 10 then ('0' as int + d) as char else ('a' as int + d - 10) as char
  }

  /** The value of a digit character; the inverse of `Digit`. */
  function DigitValue(c: char): nat {
    if '0' <= c <= '9' then c as int - '0' as int
    else if 'a' <= c <= 'z' then c as int - 'a' as int + 10
    else 0
  }

  /** `n.toString(radix)` for a non-negative integer and a radix in 2..36. */
  function RadixDigits(n: nat, radix: nat): (r: string)
    requires 2 <= radix <= 36
    ensures |r| > 0
    ensures forall i :: 0 <= i < |r| ==> r[i] == Digit(DigitValue(r[i])) && DigitValue(r[i]) < radix
    ensures r[0] == '0' ==> n == 0
    decreases n
  {
    DivMod(n, radix);
    var d := Digit(n % radix);
    DigitRoundTrip(n % radix);
    if n < radix then [d] else RadixDigits(n / radix, radix) + [d]
  }

  lemma DivMod(n: nat, radix: nat)
    requires 2 <= radix
    ensures n % radix < radix && n == n / radix * radix + n % radix
    ensures n < radix ==> n / radix == 0 && n % radix == n
    ensures n >= radix ==> 1 <= n / radix < n
  {
    if n < radix {
      DivSmall(n, radix);
    } else {
      DivShrinks(n, radix);
    }
  }

  lemma DivSmall(n: nat, radix: nat)
    requires 2 <= radix && n < radix
    ensures n / radix == 0 && n % radix == n
  {
  }

  lemma DivShrinks(n: nat, radix: nat)
    requires 2 <= radix && n >= radix
    ensures 1 <= n / radix < n
  {
    var q := n / radix;
    MulLower(q, radix);
  }

  lemma MulLower(q: nat, r: nat)
    requires r >= 2
    ensures q * r >= 2 * q
  {
    assert q * r == q * 2 + q * (r - 2);
  }

  lemma DigitRoundTrip(d: nat)
    requires d < 36
    ensures DigitValue(Digit(d)) == d
    ensures Digit(d) == '0' <==> d == 0
  {
  }

  /** The number a string of digits denotes in base `radix`. */
  function DigitsValue(s: string, radix: nat): nat {
    if |s| == 0 then 0 else DigitsValue(s[..|s| - 1], radix) * radix + DigitValue(s[|s| - 1])
  }

  /** Reading the digits of `n` back in the same base gives `n`. */
  lemma {:induction false} RadixDigitsRoundTrip(n: nat, radix: nat)
    requires 2 <= radix <= 36
    ensures DigitsValue(RadixDigits(n, radix), radix) == n
    decreases n
  {
    var r := RadixDigits(n, radix);
    if n < radix {
      DivMod(n, radix);
      DigitRoundTrip(n);
    } else {
      var high := RadixDigits(n / radix, radix);
      DivMod(n, radix);
      RadixDigitsRoundTrip(n / radix, radix);
      DigitRoundTrip(n % radix);
      assert r[..|r| - 1] == high && r[|r| - 1] == Digit(n % radix);
      var q := DigitsValue(high, radix);
      assert q == n / radix;
      assert DigitsValue(r, radix) == q * radix + n % radix;
    }
  }

  /** The elements of `s` in reverse order. */
  function Reverse<T>(s: seq<T>): (r: seq<T>)
    ensures |r| == |s|
    ensures forall i :: 0 <= i < |s| ==> r[i] == s[|s| - 1 - i]
  {
    if |s| == 0 then [] else [s[|s| - 1]] + Reverse(s[..|s| - 1])
  }
}

=== FILE: data.dfy ===
/**
  The prompt repository and the settings store of the data script. Storage is
  an in-memory value: each operation receives the stored collection and a
  flag telling whether the storage write it attempts succeeds, and returns
  the collection that storage holds afterwards.
 */
module Data {
  import opened Common
  import opened JsValues
  import Utils

  /**
    A stored prompt. Title, content and tags are always strings here because
    every writer trims them or filters them against string lists; `id` and
    `createTime` are kept as JSON values because an imported record keeps
    whatever truthy value the document supplied.
   */
  datatype Prompt = Prompt(
    id: Value,
    title: string,
    content: string,
    tags: seq<string>,
    createTime: Value,
    updateTime: int)

  /** The application settings; `version` is whatever the last saved object carried. */
  datatype Settings = Settings(presetTags: seq<string>, version: Value)

  const DefaultPresetTags: seq<string> := ["工作", "学习", "编程", "写作", "生活"]
  const DefaultVersion: Value := Str("1.0.0")
  const DefaultSettings: Settings := Settings(DefaultPresetTags, DefaultVersion)

  /** Everything the data script keeps in storage: the prompt collection and the settings. */
  datatype Store = Store(prompts: seq<Prompt>, settings: Settings)

  /** The result of a repository operation and the collection storage holds afterwards. */
  datatype Written<T> = Written(value: T, prompts: seq<Prompt>)

  predicate HasId(prompts: seq<Prompt>, id: Value) {
    exists p :: p in prompts && p.id == id
  }

  /** `prompts.findIndex(p => p.id === id)`: the first matching position, or -1. */
  function IndexOfId(prompts: seq<Prompt>, id: Value): (i: int)
    ensures -1 <= i < |prompts|
    ensures i == -1 <==> !HasId(prompts, id)
    ensures 0 <= i ==> prompts[i].id == id && forall k :: 0 <= k < i ==> prompts[k].id != id
  {
    if |prompts| == 0 then -1
    else if prompts[0].id == id then 0
    else
      var j := IndexOfId(prompts[1..], id);
      assert forall p :: p in prompts && p != prompts[0] ==> p in prompts[1..];
      if j == -1 then -1 else j + 1
  }

  /** `getPromptById(id)`: the first record carrying `id`, or nothing. */
  function GetPromptById(prompts: seq<Prompt>, id: Value): (r: Option<Prompt>)
    ensures r.None? <==> !HasId(prompts, id)
    ensures r.Some? ==> r.value.id == id
    ensures r.Some? ==> exists i :: 0 <= i < |prompts| && prompts[i] == r.value && forall k :: 0 <= k < i ==> prompts[k].id != id
  {
    var i := IndexOfId(prompts, id);
    if i < 0 then None else Some(prompts[i])
  }

  // ---------------------------------------------------------------------
  // addPrompt
  // ---------------------------------------------------------------------

  /** The argument of `addPrompt`; `tags` is `None` when it is not an array. */
  datatype Draft = Draft(title: Value, content: Value, tags: Option<seq<string>>)

  /** A value on which `!v` is false and `v.trim()` does not throw. */
  predicate IsText(v: Value) {
    v.Str? && v.s != ""
  }

  /**
    `addPrompt(draft)`. A falsy title or content is rejected before trimming
    (so a title of spaces is accepted and stored empty); a non-string makes
    `trim` throw, which is rejected the same way. The new record goes first.
   */
  function AddPrompt(prompts: seq<Prompt>, draft: Draft, newId: string, now: int, writeOk: bool): (r: Written<Option<Prompt>>)
    ensures r.value.Some? <==> IsText(draft.title) && IsText(draft.content) && writeOk
    ensures r.value.None? ==> r.prompts == prompts
    ensures r.value.Some? ==>
      && |r.prompts| == |prompts| + 1
      && r.prompts[0] == r.value.value
      && r.prompts[1..] == prompts
      && r.value.value.id == Str(newId)
      && r.value.value.title == Trim(draft.title.s)
      && r.value.value.content == Trim(draft.content.s)
      && r.value.value.tags == (if draft.tags.Some? then draft.tags.value else [])
      && r.value.value.createTime == Num(now)
      && r.value.value.updateTime == now
  {
    if !Truthy(draft.title) || !Truthy(draft.content) then Written(None, prompts)
    else if !draft.title.Str? || !draft.content.Str? then Written(None, prompts)
    else
      var p := Prompt(Str(newId), Trim(draft.title.s), Trim(draft.content.s), draft.tags.GetOr([]), Num(now), now);
      if writeOk then Written(Some(p), [p] + prompts) else Written(None, prompts)
  }

  /** A record just added is what `getPromptById` returns for its id, with equal timestamps. */
  lemma AddThenGet(prompts: seq<Prompt>, draft: Draft, newId: string, now: int)
    requires IsText(draft.title) && IsText(draft.content)
    ensures var r := AddPrompt(prompts, draft, newId, now, true);
      && GetPromptById(r.prompts, Str(newId)) == r.value
      && r.value.value.title == Trim(draft.title.s)
      && r.value.value.content == Trim(draft.content.s)
      && r.value.value.createTime == Num(r.value.value.updateTime)
  {
    var r := AddPrompt(prompts, draft, newId, now, true);
    assert IndexOfId(r.prompts, Str(newId)) == 0;
  }

  /** The emptiness check precedes trimming: a title of spaces is stored as the empty string. */
  lemma AddAcceptsBlankTitle(prompts: seq<Prompt>, newId: string, now: int)
    ensures var r := AddPrompt(prompts, Draft(Str("  "), Str("text"), None), newId, now, true);
      r.value.Some? && r.value.value.title == "" && r.value.value.tags == []
  {
    assert Trim("  ") == "" by {
      TrimEmptyIff("  ");
    }
  }

  // ---------------------------------------------------------------------
  // updatePrompt
  // ---------------------------------------------------------------------

  /** The fields an update supplies; `None` means the key is absent. */
  datatype Patch = Patch(title: Option<string>, content: Option<string>, tags: Option<seq<string>>)

  /** An explicitly supplied title or content that trims to nothing is rejected. */
  predicate PatchRejected(patch: Patch) {
    || (patch.title.Some? && Trim(patch.title.value) == "")
    || (patch.content.Some? && Trim(patch.content.value) == "")
  }

  /**
    `updatePrompt(id, patch)`: the first record with `id` is replaced in place by
    the patch laid over it, with title and content re-trimmed and the update
    time refreshed; id and creation time are kept.
   */
  function UpdatePrompt(prompts: seq<Prompt>, id: Value, patch: Patch, now: int, writeOk: bool): (r: Written<Option<Prompt>>)
    ensures r.value.Some? <==> HasId(prompts, id) && !PatchRejected(patch) && writeOk
    ensures r.value.None? ==> r.prompts == prompts
    ensures r.value.Some? ==>
      var i := IndexOfId(prompts, id);
      var prev := prompts[i];
      var q := r.value.value;
      && r.prompts == prompts[i := q]
      && q.id == prev.id
      && q.createTime == prev.createTime
      && q.title == Trim(if patch.title.Some? then patch.title.value else prev.title)
      && q.content == Trim(if patch.content.Some? then patch.content.value else prev.content)
      && q.tags == (if patch.tags.Some? then patch.tags.value else prev.tags)
      && q.updateTime == now
  {
    var i := IndexOfId(prompts, id);
    if i == -1 then Written(None, prompts)
    else if PatchRejected(patch) then Written(None, prompts)
    else
      var prev := prompts[i];
      var q := prev.(
        title := Trim(patch.title.GetOr(prev.title)),
        content := Trim(patch.content.GetOr(prev.content)),
        tags := patch.tags.GetOr(prev.tags),
        updateTime := now);
      if writeOk then Written(Some(q), prompts[i := q]) else Written(None, prompts)
  }

  // ---------------------------------------------------------------------
  // deletePrompt, searchPrompts, filterPromptsByTag
  // ---------------------------------------------------------------------

  /**
    `deletePrompt(id)`: false without any write when no record has `id`;
    otherwise every record with `id` is removed and the result is whether the
    write succeeded.
   */
  function DeletePrompt(prompts: seq<Prompt>, id: Value, writeOk: bool): (r: Written<bool>)
    ensures r.value <==> HasId(prompts, id) && writeOk
    ensures !r.value ==> r.prompts == prompts
    ensures r.value ==> forall p :: p in r.prompts <==> p in prompts && p.id != id
    ensures r.value ==> Subseq(r.prompts, prompts) && |r.prompts| < |prompts|
    ensures r.value ==> forall p :: multiset(r.prompts)[p] == if p.id != id then multiset(prompts)[p] else 0
  {
    var kept := WithoutId(prompts, id);
    if |kept| == |prompts| then
      Written(false, prompts)
    else if writeOk then Written(true, kept)
    else Written(false, prompts)
  }

  /** `prompts.filter(p => p.id !== id)`. */
  function WithoutId(prompts: seq<Prompt>, id: Value): (r: seq<Prompt>)
    ensures forall p :: p in r <==> p in prompts && p.id != id
    ensures Subseq(r, prompts)
    ensures forall p :: multiset(r)[p] == if p.id != id then multiset(prompts)[p] else 0
    ensures |r| == |prompts| <==> !HasId(prompts, id)
  {
    var keep := (p: Prompt) => p.id != id;
    FilterCounts(prompts, keep);
    if |Filter(prompts, keep)| == |prompts| then
      FilterKeepsAllOnlyIfAllPass(prompts, keep);
      Filter(prompts, keep)
    else
      Filter(prompts, keep)
  }

  lemma WithoutIdCons(prompts: seq<Prompt>, id: Value)
    requires |prompts| > 0
    ensures WithoutId(prompts, id) ==
      if prompts[0].id != id then [prompts[0]] + WithoutId(prompts[1..], id) else WithoutId(prompts[1..], id)
  {
  }

  /** The lookup in a non-empty collection: its head when the id matches, otherwise the lookup in its tail. */
  lemma GetPromptByIdCons(prompts: seq<Prompt>, id: Value)
    requires |prompts| > 0
    ensures GetPromptById(prompts, id) == if prompts[0].id == id then Some(prompts[0]) else GetPromptById(prompts[1..], id)
  {
    if prompts[0].id != id {
      var j := IndexOfId(prompts[1..], id);
      assert j >= 0 ==> prompts[j + 1] == prompts[1..][j];
    }
  }

  /** After a successful delete no record has the id, and every other id is found as before. */
  lemma DeleteThenGet(prompts: seq<Prompt>, id: Value, other: Value)
    requires HasId(prompts, id) && other != id
    ensures var r := DeletePrompt(prompts, id, true);
      && r.value
      && GetPromptById(r.prompts, id).None?
      && GetPromptById(r.prompts, other) == GetPromptById(prompts, other)
  {
    WithoutIdKeepsOthers(prompts, id, other);
  }

  /** Removing the records with `id` keeps the first record with another id. */
  lemma {:induction false} WithoutIdKeepsOthers(prompts: seq<Prompt>, id: Value, other: Value)
    requires other != id
    ensures GetPromptById(WithoutId(prompts, id), other) == GetPromptById(prompts, other)
  {
    if |prompts| > 0 {
      var rest := WithoutId(prompts[1..], id);
      WithoutIdKeepsOthers(prompts[1..], id, other);
      WithoutIdCons(prompts, id);
      GetPromptByIdCons(prompts, other);
      if prompts[0].id != id {
        GetPromptByIdCons([prompts[0]] + rest, other);
        assert ([prompts[0]] + rest)[1..] == rest;
      }
    }
  }

  /** A filter that loses no element keeps every element. */
  lemma {:induction false} FilterKeepsAllOnlyIfAllPass<T(!new)>(s: seq<T>, keep: T -> bool)
    requires |Filter(s, keep)| == |s|
    ensures forall x :: x in s ==> keep(x)
  {
    if |s| > 0 {
      assert keep(s[0]);
      FilterKeepsAllOnlyIfAllPass(s[1..], keep);
      assert forall x :: x in s ==> x == s[0] || x in s[1..];
    }
  }

  /**
    The normalised search term of `searchPrompts(keyword)`: none for a falsy
    or non-string keyword, or one that is blank after lowering and trimming.
   */
  function SearchTerm(keyword: Value): (t: Option<string>)
    ensures t.Some? ==> t.value != "" && IsLower(t.value) && IsTrimmed(t.value)
    ensures t.Some? ==> keyword.Str? && t.value == Trim(ToLower(keyword.s))
    ensures t.None? <==> !keyword.Str? || AllSpace(ToLower(keyword.s))
  {
    if !Truthy(keyword) || !keyword.Str? then None
    else
      var term := Trim(ToLower(keyword.s));
      TrimEmptyIff(ToLower(keyword.s));
      TrimKeepsLower(ToLower(keyword.s));
      if term == "" then None else Some(term)
  }

  lemma TrimKeepsLower(s: string)
    requires IsLower(s)
    ensures IsLower(Trim(s))
  {
    var a := SkipSpace(s, 0);
    var r := Trim(s);
    assert r == s[a..SkipSpaceBack(s, a, |s|)];
    forall k | 0 <= k < |r|
      ensures !('A' <= r[k] <= 'Z')
    {
      assert r[k] == s[a + k];
    }
  }

  /** Case-insensitive substring match against title or content. */
  predicate MatchesTerm(p: Prompt, term: string) {
    Includes(ToLower(p.title), term) || Includes(ToLower(p.content), term)
  }

  /**
    `searchPrompts(keyword)`: the whole collection when there is no search
    term, otherwise the records whose title or content contains it, in order.
   */
  function SearchPrompts(prompts: seq<Prompt>, keyword: Value): (r: seq<Prompt>)
    ensures SearchTerm(keyword).None? ==> r == prompts
    ensures SearchTerm(keyword).Some? ==>
      && Subseq(r, prompts)
      && (forall p :: p in r <==> p in prompts && MatchesTerm(p, SearchTerm(keyword).value))
      && forall p :: multiset(r)[p] == if MatchesTerm(p, SearchTerm(keyword).value) then multiset(prompts)[p] else 0
  {
    var term := SearchTerm(keyword);
    if term.None? then prompts
    else
      var keep := (p: Prompt) => MatchesTerm(p, term.value);
      FilterCounts(prompts, keep);
      Filter(prompts, keep)
  }

  /** Searching is insensitive to the case of the keyword. */
  lemma SearchIgnoresKeywordCase(prompts: seq<Prompt>, keyword: string)
    ensures SearchPrompts(prompts, Str(ToLower(keyword))) == SearchPrompts(prompts, Str(keyword))
  {
    SearchTermIgnoresCase(keyword);
  }

  lemma SearchTermIgnoresCase(keyword: string)
    ensures SearchTerm(Str(ToLower(keyword))) == SearchTerm(Str(keyword))
  {
    var lower := ToLower(keyword);
    ToLowerIdempotent(keyword);
    assert ToLower(lower) == lower;
    assert Truthy(Str(lower)) == Truthy(Str(keyword));
  }

  const AllTag: string := "all"

  /**
    `filterPromptsByTag(tag)`: everything for `""` or `"all"`, otherwise the
    records whose tags include `tag`, in order.
   */
  function FilterPromptsByTag(prompts: seq<Prompt>, tag: string): (r: seq<Prompt>)
    ensures tag == "" || tag == AllTag ==> r == prompts
    ensures tag != "" && tag != AllTag ==>
      && Subseq(r, prompts)
      && (forall p :: p in r <==> p in prompts && tag in p.tags)
      && forall p :: multiset(r)[p] == if tag in p.tags then multiset(prompts)[p] else 0
  {
    if tag == "" || tag == AllTag then prompts
    else
      var keep := (p: Prompt) => tag in p.tags;
      FilterCounts(prompts, keep);
      Filter(prompts, keep)
  }

  // ---------------------------------------------------------------------
  // Settings
  // ---------------------------------------------------------------------

  /** The strings among `items` that are not blank, in order. */
  function NonBlankNames(items: seq<Value>): (r: seq<string>)
    ensures forall t :: t in r <==> Str(t) in items && !AllSpace(t)
  {
    if |items| == 0 then []
    else
      var rest := NonBlankNames(items[1..]);
      assert forall t :: Str(t) in items <==> Str(t) == items[0] || Str(t) in items[1..];
      if !Utils.IsEmpty(items[0]) then [items[0].s] + rest else rest
  }

  /** A preset tag list as saving leaves it: no blank entry, no repetition. */
  predicate NormalTags(tags: seq<string>) {
    NoDup(tags) && forall t :: t in tags ==> !AllSpace(t)
  }

  /**
    `uniqueArray(tags.filter(t => !isEmpty(t)))` for an array value: the
    non-blank string entries, each once, at their first occurrence.
   */
  function NormalizeTags(items: seq<Value>): (r: seq<string>)
    ensures NormalTags(r)
    ensures forall t :: t in r <==> Str(t) in items && !AllSpace(t)
    ensures forall i, j :: 0 <= i < j < |r| ==> FirstIndex(items, Str(r[i])) < FirstIndex(items, Str(r[j]))
  {
    var r := Dedup(NonBlankNames(items));
    NormalizeFirstOrder(items, r);
    r
  }

  lemma NormalizeFirstOrder(items: seq<Value>, r: seq<string>)
    requires r == Dedup(NonBlankNames(items))
    ensures forall t :: t in r ==> Str(t) in items
    ensures forall i, j :: 0 <= i < j < |r| ==> FirstIndex(items, Str(r[i])) < FirstIndex(items, Str(r[j]))
  {
    var n := NonBlankNames(items);
    DedupFirstOrder(n);
    forall i, j | 0 <= i < j < |r|
      ensures FirstIndex(items, Str(r[i])) < FirstIndex(items, Str(r[j]))
    {
      assert r[i] in n && r[j] in n;
      NonBlankFirstOrder(items, r[i], r[j]);
    }
  }

  /** `NonBlankNames` keeps the order in which names first occur among the items. */
  lemma {:induction false} NonBlankFirstOrder(items: seq<Value>, t: string, u: string)
    requires t in NonBlankNames(items) && u in NonBlankNames(items)
    requires FirstIndex(NonBlankNames(items), t) < FirstIndex(NonBlankNames(items), u)
    ensures Str(t) in items && Str(u) in items
    ensures FirstIndex(items, Str(t)) < FirstIndex(items, Str(u))
  {
    var n := NonBlankNames(items);
    var rest := NonBlankNames(items[1..]);
    if !Utils.IsEmpty(items[0]) {
      assert n == [items[0].s] + rest;
      if t != items[0].s {
        assert u != items[0].s;
        assert n[1..] == rest;
        NonBlankFirstOrder(items[1..], t, u);
      }
    } else {
      assert n == rest;
      assert items[0] != Str(t) && items[0] != Str(u);
      NonBlankFirstOrder(items[1..], t, u);
    }
  }

  /**
    `saveSettings(input)` before the write: the input laid over the defaults;
    a `presetTags` that is not an array is replaced by the default tags, an
    array is normalised.
   */
  function SettingsFromValue(input: Value): (s: Settings)
    ensures NormalTags(s.presetTags)
    ensures input.Obj? && "presetTags" in input.fields && input.fields["presetTags"].Arr? ==>
      forall t :: t in s.presetTags <==> Str(t) in input.fields["presetTags"].items && !AllSpace(t)
    ensures input.Obj? && "presetTags" in input.fields && input.fields["presetTags"].Arr? ==>
      var items := input.fields["presetTags"].items;
      forall i, j :: 0 <= i < j < |s.presetTags| ==> FirstIndex(items, Str(s.presetTags[i])) < FirstIndex(items, Str(s.presetTags[j]))
    ensures !(input.Obj? && "presetTags" in input.fields && input.fields["presetTags"].Arr?) ==>
      s.presetTags == DefaultPresetTags
    ensures s.version == (if input.Obj? && "version" in input.fields then input.fields["version"] else DefaultVersion)
  {
    var hasTags := input.Obj? && "presetTags" in input.fields;
    var tags := if hasTags then input.fields["presetTags"] else StrArr(DefaultPresetTags);
    var version := if input.Obj? && "version" in input.fields then input.fields["version"] else DefaultVersion;
    if !tags.Arr? then
      DefaultTagsNormal();
      Settings(DefaultPresetTags, version)
    else
      NormalizeDefaultTags();
      Settings(NormalizeTags(tags.items), version)
  }

  lemma DefaultTagsNormal()
    ensures NormalTags(DefaultPresetTags)
  {
    var d := DefaultPresetTags;
    forall t | t in d ensures !AllSpace(t) {
      assert !IsSpace(t[0]);
    }
  }

  /** Normalising a list that is already normal gives the list back. */
  lemma {:induction false} NormalizeNormal(tags: seq<string>)
    requires NormalTags(tags)
    ensures NormalizeTags(StrArr(tags).items) == tags
  {
    NonBlankNamesOfStrings(tags);
    DedupOfNoDup(tags);
  }

  lemma {:induction false} NonBlankNamesOfStrings(tags: seq<string>)
    requires forall t :: t in tags ==> !AllSpace(t)
    ensures NonBlankNames(StrArr(tags).items) == tags
  {
    if |tags| > 0 {
      var items := StrArr(tags).items;
      assert items[1..] == StrArr(tags[1..]).items;
      NonBlankNamesOfStrings(tags[1..]);
      assert !Utils.IsEmpty(items[0]);
    }
  }

  lemma NormalizeDefaultTags()
    ensures NormalizeTags(StrArr(DefaultPresetTags).items) == DefaultPresetTags
  {
    DefaultTagsNormal();
    NormalizeNormal(DefaultPresetTags);
  }

  /** The settings object as it is stored and exported. */
  function SettingsValue(s: Settings): (v: Value)
    ensures v.Obj? && Truthy(v)
    ensures Get(v, "presetTags") == StrArr(s.presetTags) && Get(v, "version") == s.version
  {
    Obj(map["presetTags" := StrArr(s.presetTags), "version" := s.version])
  }

  /** Saving the stored form of normal settings reproduces them. */
  lemma SettingsRoundTrip(s: Settings)
    requires NormalTags(s.presetTags)
    ensures SettingsFromValue(SettingsValue(s)) == s
  {
    NormalizeNormal(s.presetTags);
  }

  /** Whether the write succeeded, and the settings storage holds afterwards. */
  datatype SettingsWrite = SettingsWrite(ok: bool, settings: Settings)

  /** `saveSettings(input)`: normalises and writes; a failed write keeps the old settings. */
  function SaveSettings(current: Settings, input: Value, writeOk: bool): (r: SettingsWrite)
    ensures r.ok == writeOk
    ensures r.ok ==> r.settings == SettingsFromValue(input) && NormalTags(r.settings.presetTags)
    ensures !r.ok ==> r.settings == current
  {
    if writeOk then SettingsWrite(true, SettingsFromValue(input)) else SettingsWrite(false, current)
  }

  /** `updatePresetTags(tags)`: saves the current settings with `presetTags` replaced. */
  function UpdatePresetTags(current: Settings, tags: seq<string>, writeOk: bool): (r: SettingsWrite)
    ensures r.ok == writeOk
    ensures !r.ok ==> r.settings == current
    ensures r.ok ==> r.settings.version == current.version
    ensures r.ok ==> NormalTags(r.settings.presetTags)
    ensures r.ok ==> forall t :: t in r.settings.presetTags <==> t in tags && !AllSpace(t)
    ensures r.ok ==> var p := r.settings.presetTags;
      forall i, j :: 0 <= i < j < |p| ==> FirstIndex(tags, p[i]) < FirstIndex(tags, p[j])
  {
    var input := Obj(map["presetTags" := StrArr(tags), "version" := current.version]);
    SettingsOfTagList(input, current.version, tags);
    NormalizeTagList(tags);
    SaveSettings(current, input, writeOk)
  }

  lemma SettingsOfTagList(input: Value, version: Value, tags: seq<string>)
    requires input == Obj(map["presetTags" := StrArr(tags), "version" := version])
    ensures SettingsFromValue(input) == Settings(NormalizeTags(StrArr(tags).items), version)
  {
  }

  /** Normalising a list of strings, stated in terms of the list itself. */
  lemma NormalizeTagList(tags: seq<string>)
    ensures var r := NormalizeTags(StrArr(tags).items);
      && (forall t :: t in r <==> t in tags && !AllSpace(t))
      && forall i, j :: 0 <= i < j < |r| ==> FirstIndex(tags, r[i]) < FirstIndex(tags, r[j])
  {
    StrArrIndices(tags);
  }

  /** A string occurs in the array of `tags` exactly when it occurs in `tags`, and first at the same place. */
  lemma StrArrIndices(tags: seq<string>)
    ensures forall t :: Str(t) in StrArr(tags).items <==> t in tags
    ensures forall t :: t in tags ==> FirstIndex(StrArr(tags).items, Str(t)) == FirstIndex(tags, t)
  {
    var items := StrArr(tags).items;
    forall t | Str(t) in items
      ensures t in tags
    {
      var i :| 0 <= i < |tags| && items[i] == Str(t);
    }
    forall t | t in tags
      ensures Str(t) in items && FirstIndex(items, Str(t)) == FirstIndex(tags, t)
    {
      var i := FirstIndex(tags, t);
      FirstIndexIs(items, Str(t), i);
    }
  }

  /** Tags that are already normal are saved unchanged. */
  lemma UpdateNormalPresetTags(current: Settings, tags: seq<string>)
    requires NormalTags(tags)
    ensures UpdatePresetTags(current, tags, true).settings.presetTags == tags
  {
    NormalizeNormal(tags);
  }

  /** Saving back the tags an update stored changes nothing. */
  lemma UpdatePresetTagsIdempotent(current: Settings, tags: seq<string>)
    ensures var saved := UpdatePresetTags(current, tags, true).settings;
      UpdatePresetTags(saved, saved.presetTags, true).settings == saved
  {
    var saved := UpdatePresetTags(current, tags, true).settings;
    UpdateNormalPresetTags(saved, saved.presetTags);
  }

  /** `resetSettings()`: saves the defaults. */
  function ResetSettings(current: Settings, writeOk: bool): (r: SettingsWrite)
    ensures r.ok == writeOk
    ensures r.ok ==> r.settings == DefaultSettings
    ensures !r.ok ==> r.settings == current
  {
    DefaultTagsNormal();
    SettingsRoundTrip(DefaultSettings);
    SaveSettings(current, SettingsValue(DefaultSettings), writeOk)
  }
}

=== FILE: js_sort.dfy ===
/**
  `Array.prototype.sort()` without a comparison function, on arrays of
  strings: the strings in ascending order of their characters, a proper
  prefix before every extension of it.
 */
module JsSort {

  /** The default sort order on strings: character by character, a prefix first. */
  predicate Le(a: string, b: string)
    decreases |a|
  {
    |a| == 0 || (|b| > 0 && (a[0] < b[0] || (a[0] == b[0] && Le(a[1..], b[1..]))))
  }

  lemma {:induction false} LeReflexive(a: string)
    ensures Le(a, a)
    decreases |a|
  {
    if |a| > 0 {
      LeReflexive(a[1..]);
    }
  }

  lemma {:induction false} LeTotal(a: string, b: string)
    ensures Le(a, b) || Le(b, a)
    decreases |a|
  {
    if |a| > 0 && |b| > 0 && a[0] == b[0] {
      LeTotal(a[1..], b[1..]);
    }
  }

  lemma {:induction false} LeAntisymmetric(a: string, b: string)
    requires Le(a, b) && Le(b, a)
    ensures a == b
    decreases |a|
  {
    if |a| > 0 {
      LeAntisymmetric(a[1..], b[1..]);
      assert a == [a[0]] + a[1..];
      assert b == [b[0]] + b[1..];
    }
  }

  lemma {:induction false} LeTransitive(a: string, b: string, c: string)
    requires Le(a, b) && Le(b, c)
    ensures Le(a, c)
    decreases |a|
  {
    if |a| > 0 && a[0] == b[0] && b[0] == c[0] {
      LeTransitive(a[1..], b[1..], c[1..]);
    }
  }

  predicate Sorted(s: seq<string>) {
    forall i, j :: 0 <= i < j < |s| ==> Le(s[i], s[j])
  }

  /** `x` placed into the sorted `s` before the first element it does not follow. */
  function Insert(x: string, s: seq<string>): (r: seq<string>)
    requires Sorted(s)
    ensures Sorted(r)
    ensures multiset(r) == multiset(s) + multiset{x}
  {
    if |s| == 0 then [x]
    else if Le(x, s[0]) then
      InsertFirst(x, s);
      [x] + s
    else
      var r := Insert(x, s[1..]);
      LeTotal(x, s[0]);
      assert s == [s[0]] + s[1..];
      InsertAfterFirst(x, s, r);
      [s[0]] + r
  }

  lemma InsertFirst(x: string, s: seq<string>)
    requires Sorted(s) && |s| > 0 && Le(x, s[0])
    ensures Sorted([x] + s)
  {
    forall j | 0 <= j < |s|
      ensures Le(x, s[j])
    {
      if j > 0 {
        LeTransitive(x, s[0], s[j]);
      }
    }
  }

  lemma InsertAfterFirst(x: string, s: seq<string>, r: seq<string>)
    requires Sorted(s) && |s| > 0 && Le(s[0], x)
    requires Sorted(r) && multiset(r) == multiset(s[1..]) + multiset{x}
    ensures Sorted([s[0]] + r)
  {
    forall k | 0 <= k < |r|
      ensures Le(s[0], r[k])
    {
      assert r[k] in multiset(r);
      if r[k] != x {
        assert r[k] in s[1..];
        var j :| 0 <= j < |s[1..]| && s[1..][j] == r[k];
        assert s[j + 1] == r[k];
      }
    }
  }

  /** `s.slice().sort()`: the same strings, in ascending order. */
  function Sort(s: seq<string>): (r: seq<string>)
    ensures Sorted(r)
    ensures multiset(r) == multiset(s)
  {
    if |s| == 0 then []
    else
      assert s == [s[0]] + s[1..];
      Insert(s[0], Sort(s[1..]))
  }

  /** Two sorted arrangements of the same strings are the same sequence. */
  lemma {:induction false} SortedUnique(a: seq<string>, b: seq<string>)
    requires Sorted(a) && Sorted(b) && multiset(a) == multiset(b)
    ensures a == b
    decreases |a|
  {
    assert |a| == |multiset(a)| == |b|;
    if |a| > 0 {
      LeastFirst(a, b[0]);
      LeastFirst(b, a[0]);
      LeAntisymmetric(a[0], b[0]);
      assert a == [a[0]] + a[1..];
      assert b == [b[0]] + b[1..];
      assert multiset(a[1..]) == multiset(a) - multiset{a[0]};
      assert multiset(b[1..]) == multiset(b) - multiset{b[0]};
      SortedUnique(a[1..], b[1..]);
    }
  }

  /** The first element of a sorted sequence comes no later than any of its elements. */
  lemma LeastFirst(s: seq<string>, x: string)
    requires Sorted(s) && x in multiset(s)
    ensures Le(s[0], x)
  {
    var k :| 0 <= k < |s| && s[k] == x;
    if k == 0 {
      LeReflexive(x);
    }
  }

  /** Sorting makes two arrays equal exactly when they hold the same strings equally often. */
  lemma SortEqualIff(a: seq<string>, b: seq<string>)
    ensures Sort(a) == Sort(b) <==> multiset(a) == multiset(b)
  {
    if multiset(a) == multiset(b) {
      SortedUnique(Sort(a), Sort(b));
    }
  }
}

=== FILE: js_values.dfy ===
/**
  The JavaScript values the application handles without a static type: parsed
  JSON documents, the arguments of the defensive helpers, and the three
  `String.prototype` methods the logic depends on (`trim`, `toLowerCase`,
  `includes`).
 */
module JsValues {

  /**
    A JSON value, plus `Undefined` for a missing property. Numbers are
    integers here: every number the application stores is a millisecond
    timestamp or a count.
   */
  datatype Value =
    | Undefined
    | Null
    | Bool(b: bool)
    | Num(n: int)
    | Str(s: string)
    | Arr(items: seq<Value>)
    | Obj(fields: map<string, Value>)

  /** JavaScript truthiness: `undefined`, `null`, `false`, `0` and `""` are falsy. */
  predicate Truthy(v: Value) {
    match v
    case Undefined => false
    case Null => false
    case Bool(b) => b
    case Num(n) => n != 0
    case Str(s) => s != ""
    case Arr(_) => true
    case Obj(_) => true
  }

  /** `!v || typeof v !== 'object'` is false exactly for arrays and objects. */
  predicate IsObjectLike(v: Value) {
    v.Arr? || v.Obj?
  }

  /**
    Property read `v[key]`. Only objects carry named properties here; reading
    a property of `null` or `undefined` throws in JavaScript, and every caller
    in the model checks for those values first or handles the throw exactly
    as it handles a missing property.
   */
  function Get(v: Value, key: string): (r: Value)
    ensures v.Obj? && key in v.fields ==> r == v.fields[key]
    ensures !(v.Obj? && key in v.fields) ==> r == Undefined
  {
    if v.Obj? && key in v.fields then v.fields[key] else Undefined
  }

  /** An array of strings, as `JSON.stringify` of a `string[]` would carry it. */
  function StrArr(ss: seq<string>): (r: Value)
    ensures r.Arr? && |r.items| == |ss|
    ensures forall i :: 0 <= i < |ss| ==> r.items[i] == Str(ss[i])
  {
    Arr(seq(|ss|, i requires 0 <= i < |ss| => Str(ss[i])))
  }

  // ---------------------------------------------------------------------
  // String.prototype.trim
  // ---------------------------------------------------------------------

  /**
    The characters `trim` removes: the WhiteSpace and LineTerminator code
    points of section 12.2 and 12.3 of ECMA-262 (tab, vertical tab, form feed,
    space, no-break space, byte order mark, the Space_Separator category,
    line feed, carriage return, line and paragraph separators).
   */
  predicate IsSpace(c: char) {
    || c == '\t' || c == '\U{0B}' || c == '\U{0C}' || c == ' '
    || c == '\U{A0}' || c == '\U{FEFF}' || c == '\U{1680}'
    || ('\U{2000}' <= c <= '\U{200A}')
    || c == '\U{202F}' || c == '\U{205F}' || c == '\U{3000}'
    || c == '\n' || c == '\r' || c == '\U{2028}' || c == '\U{2029}'
  }

  /** No leading and no trailing whitespace. */
  predicate IsTrimmed(s: string) {
    s == "" || (!IsSpace(s[0]) && !IsSpace(s[|s| - 1]))
  }

  predicate AllSpace(s: string) {
    forall i :: 0 <= i < |s| ==> IsSpace(s[i])
  }

  /** The first position from `i` on that does not hold whitespace, or `|s|`. */
  function SkipSpace(s: string, i: nat): (k: nat)
    requires i <= |s|
    ensures i <= k <= |s|
    ensures forall j :: i <= j < k ==> IsSpace(s[j])
    ensures k == |s| || !IsSpace(s[k])
    decreases |s| - i
  {
    if i < |s| && IsSpace(s[i]) then SkipSpace(s, i + 1) else i
  }

  /** The end of the last non-whitespace character in `s[lo..j]`, or `lo`. */
  function SkipSpaceBack(s: string, lo: nat, j: nat): (k: nat)
    requires lo <= j <= |s|
    ensures lo <= k <= j
    ensures forall m :: k <= m < j ==> IsSpace(s[m])
    ensures k == lo || !IsSpace(s[k - 1])
    decreases j
  {
    if lo < j && IsSpace(s[j - 1]) then SkipSpaceBack(s, lo, j - 1) else j
  }

  /** `s.trim()`: the part of `s` between its leading and its trailing whitespace. */
  function Trim(s: string): (r: string)
    ensures IsTrimmed(r)
    ensures |r| <= |s|
  {
    var a := SkipSpace(s, 0);
    var b := SkipSpaceBack(s, a, |s|);
    assert a < b ==> !IsSpace(s[a]) && !IsSpace(s[b - 1]);
    s[a..b]
  }

  /** `SkipSpace` is the only position with its two properties. */
  lemma SkipSpaceIs(s: string, i: nat, k: nat)
    requires i <= k <= |s|
    requires forall j :: i <= j < k ==> IsSpace(s[j])
    requires k == |s| || !IsSpace(s[k])
    ensures SkipSpace(s, i) == k
  {
  }

  /** `SkipSpaceBack` is the only position with its two properties. */
  lemma SkipSpaceBackIs(s: string, lo: nat, j: nat, k: nat)
    requires lo <= k <= j <= |s|
    requires forall m :: k <= m < j ==> IsSpace(s[m])
    requires k == lo || !IsSpace(s[k - 1])
    ensures SkipSpaceBack(s, lo, j) == k
  {
  }

  /** Trimming an already trimmed string changes nothing. */
  lemma TrimOfTrimmed(s: string)
    requires IsTrimmed(s)
    ensures Trim(s) == s
  {
    SkipSpaceIs(s, 0, 0);
    SkipSpaceBackIs(s, 0, |s|, |s|);
    assert s[0..|s|] == s;
  }

  lemma TrimIdempotent(s: string)
    ensures Trim(Trim(s)) == Trim(s)
  {
    TrimOfTrimmed(Trim(s));
  }

  /** A leading whitespace character makes no difference to `trim`. */
  lemma TrimDropsLeadingSpace(c: char, s: string)
    requires IsSpace(c)
    ensures Trim([c] + s) == Trim(s)
  {
    var u := [c] + s;
    var a := SkipSpace(s, 0);
    var b := SkipSpaceBack(s, a, |s|);
    SkipSpaceAfterSpace(c, s);
    var a' := SkipSpace(u, 0);
    assert a' == a + 1;
    SkipSpaceBackAfterChar(c, s, a);
    var b' := SkipSpaceBack(u, a', |u|);
    assert b' == b + 1;
    TrimIsSlice(u);
    TrimIsSlice(s);
    SliceAfterHead(c, s, a, b);
  }

  lemma TrimIsSlice(s: string)
    ensures var a := SkipSpace(s, 0); Trim(s) == s[a..SkipSpaceBack(s, a, |s|)]
  {
  }

  lemma SliceAfterHead<T>(c: T, s: seq<T>, a: nat, b: nat)
    requires a <= b <= |s|
    ensures ([c] + s)[a + 1..b + 1] == s[a..b]
  {
  }

  lemma SkipSpaceAfterSpace(c: char, s: string)
    requires IsSpace(c)
    ensures SkipSpace([c] + s, 0) == SkipSpace(s, 0) + 1
  {
    var u := [c] + s;
    var a := SkipSpace(s, 0);
    forall j | 0 <= j < a + 1
      ensures IsSpace(u[j])
    {
      if j > 0 {
        assert u[j] == s[j - 1];
      }
    }
    assert a + 1 == |u| || u[a + 1] == s[a];
    SkipSpaceIs(u, 0, a + 1);
  }

  lemma SkipSpaceBackAfterChar(c: char, s: string, lo: nat)
    requires lo <= |s|
    ensures SkipSpaceBack([c] + s, lo + 1, |s| + 1) == SkipSpaceBack(s, lo, |s|) + 1
  {
    var u := [c] + s;
    var b := SkipSpaceBack(s, lo, |s|);
    forall m | b + 1 <= m < |u|
      ensures IsSpace(u[m])
    {
      assert u[m] == s[m - 1];
    }
    assert b == lo || u[b] == s[b - 1];
    SkipSpaceBackIs(u, lo + 1, |u|, b + 1);
  }

  /** `s.trim()` is empty exactly when `s` consists of whitespace only. */
  lemma TrimEmptyIff(s: string)
    ensures Trim(s) == "" <==> AllSpace(s)
  {
    var a := SkipSpace(s, 0);
    var b := SkipSpaceBack(s, a, |s|);
    assert |Trim(s)| == b - a;
    assert a == b ==> a == |s|;
  }

  /**
    `s.trim()` is `s` with a run of whitespace removed at each end and nothing
    else removed; with `IsTrimmed(Trim(s))` this leaves no other choice.
   */
  lemma TrimStripsEnds(s: string)
    ensures exists a, b :: 0 <= a <= b <= |s| && AllSpace(s[..a]) && AllSpace(s[b..]) && Trim(s) == s[a..b]
  {
    var a := SkipSpace(s, 0);
    var b := SkipSpaceBack(s, a, |s|);
    forall i | 0 <= i < a
      ensures IsSpace(s[..a][i])
    {
      assert s[..a][i] == s[i];
    }
    forall i | 0 <= i < |s| - b
      ensures IsSpace(s[b..][i])
    {
      assert s[b..][i] == s[b + i];
    }
    assert Trim(s) == s[a..b];
  }

  // ---------------------------------------------------------------------
  // String.prototype.toLowerCase and String.prototype.includes
  // ---------------------------------------------------------------------

  function LowerChar(c: char): char {
    if 'A' <= c <= 'Z' then (c as int + 32) as char else c
  }

  predicate IsLower(s: string) {
    forall i :: 0 <= i < |s| ==> !('A' <= s[i] <= 'Z')
  }

  /** `s.toLowerCase()`, restricted to the Basic Latin letters. */
  function ToLower(s: string): (r: string)
    ensures |r| == |s|
    ensures IsLower(r)
    ensures forall i :: 0 <= i < |s| ==> (r[i] == s[i] <==> !('A' <= s[i] <= 'Z'))
    ensures forall i :: 0 <= i < |s| && 'A' <= s[i] <= 'Z' ==> r[i] == (s[i] as int + 32) as char
  {
    seq(|s|, i requires 0 <= i < |s| => LowerChar(s[i]))
  }

  lemma ToLowerIdempotent(s: string)
    ensures ToLower(ToLower(s)) == ToLower(s)
  {
  }

  /** Lowering is the identity on text that has no upper-case letters. */
  lemma ToLowerOfLower(s: string)
    requires IsLower(s)
    ensures ToLower(s) == s
  {
  }

  predicate OccursAt(s: string, sub: string, i: nat) {
    i + |sub| <= |s| && s[i..i + |sub|] == sub
  }

  /** `s.includes(sub)`. */
  predicate Includes(s: string, sub: string) {
    exists i: nat :: i <= |s| && OccursAt(s, sub, i)
  }

  lemma IncludesSelf(s: string)
    ensures Includes(s, s)
  {
    assert OccursAt(s, s, 0);
  }
}

=== FILE: main_view.dfy ===
/**
  The tag-management and list computations of the page script, with the DOM
  reads replaced by parameters: adding and removing tags in the settings
  dialog's working list, saving that list (which strips deleted tags from
  the prompts), composing search with the tag filter, the tag-filter
  buttons with their counts, and the unsaved-changes check.
 */
module MainView {
  import opened Common
  import opened JsValues
  import opened Data
  import JsSort

  // ---------------------------------------------------------------------
  // The working tag list of the settings dialog
  // ---------------------------------------------------------------------

  /**
    `handleAddTag()` with `input` the text of the new-tag field: the trimmed
    tag is appended, unless it is empty or already listed.
   */
  function AddTag(temp: seq<string>, input: string): (r: seq<string>)
    ensures |temp| <= |r| <= |temp| + 1 && r[..|temp|] == temp
    ensures forall t :: t in r <==> t in temp || (t == Trim(input) && t != "")
    ensures NoDup(temp) ==> NoDup(r)
    ensures forall t :: t in r && t !in temp ==> IsTrimmed(t)
    ensures Trim(input) == "" || Trim(input) in temp ==> r == temp
  {
    var tag := Trim(input);
    if tag == "" || tag in temp then temp
    else
      assert (temp + [tag])[..|temp|] == temp;
      if NoDup(temp) then NoDupAppend(temp, tag); temp + [tag] else temp + [tag]
  }

  /** Adding the same input twice is the same as adding it once. */
  lemma AddTagIdempotent(temp: seq<string>, input: string)
    ensures AddTag(AddTag(temp, input), input) == AddTag(temp, input)
  {
  }

  /**
    `removePresetTag(tag)`. For a tag that is saved and carried by some
    prompt the user is asked first; `confirmed` is the answer. Otherwise, or
    once confirmed, every occurrence of the tag leaves the working list.
   */
  function RemovePresetTag(temp: seq<string>, saved: seq<string>, prompts: seq<Prompt>, tag: string, confirmed: bool): (r: seq<string>)
    ensures (tag in saved && (exists p :: p in prompts && tag in p.tags) && !confirmed) ==> r == temp
    ensures !(tag in saved && (exists p :: p in prompts && tag in p.tags) && !confirmed) ==>
      && Subseq(r, temp)
      && (forall t :: t in r <==> t in temp && t != tag)
      && forall t :: multiset(r)[t] == if t != tag then multiset(temp)[t] else 0
  {
    var related := Filter(prompts, (p: Prompt) => tag in p.tags);
    if tag in saved && |related| > 0 && !confirmed then
      assert related[0] in related;
      temp
    else
      assert (exists p :: p in prompts && tag in p.tags) ==> |related| > 0;
      var keep := t => t != tag;
      FilterCounts(temp, keep);
      Filter(temp, keep)
  }

  /** Removing a tag that was just added, without confirmation being needed, restores the list. */
  lemma AddThenRemove(temp: seq<string>, input: string, saved: seq<string>, prompts: seq<Prompt>, confirmed: bool)
    requires Trim(input) != "" && Trim(input) !in temp
    requires Trim(input) !in saved || confirmed
    ensures RemovePresetTag(AddTag(temp, input), saved, prompts, Trim(input), confirmed) == temp
  {
    var tag := Trim(input);
    FilterAppend(temp, [tag], t => t != tag);
  }

  // ---------------------------------------------------------------------
  // Saving the working list
  // ---------------------------------------------------------------------

  /**
    `tags.filter(t => !others.includes(t))`: the saved tags missing from the
    working list (the deleted tags), and a prompt's tags without the deleted
    ones, are both this.
   */
  function TagsOutside(tags: seq<string>, others: seq<string>): (r: seq<string>)
    ensures Subseq(r, tags)
    ensures forall t :: t in r <==> t in tags && t !in others
    ensures forall t :: multiset(r)[t] == if t !in others then multiset(tags)[t] else 0
  {
    var keep := t => t !in others;
    FilterCounts(tags, keep);
    Filter(tags, keep)
  }

  /** `originalTags.length !== updatedTags.length`: the prompt carries a deleted tag. */
  predicate LosesTags(p: Prompt, deleted: seq<string>) {
    |TagsOutside(p.tags, deleted)| != |p.tags|
  }

  /** A prompt loses tags exactly when it carries one of the deleted tags. */
  lemma LosesTagsIff(p: Prompt, deleted: seq<string>)
    ensures LosesTags(p, deleted) <==> exists t :: t in p.tags && t in deleted
  {
    if t :| t in p.tags && t in deleted {
      FilterDropsSome(p.tags, t => t !in deleted, t);
    }
  }

  /** The patch `{ tags: updatedTags }` the loop hands to `updatePrompt`. */
  function TagsPatch(p: Prompt, deleted: seq<string>): Patch {
    Patch(None, None, Some(TagsOutside(p.tags, deleted)))
  }

  /**
    The loop of `handleSaveSettings` as written: it walks the prompts read
    before it started (`todo`) and writes each one that loses a tag back
    through `updatePrompt`, which looks the record up by id in the current
    collection `cur`.
   */
  function StripByIdFrom(cur: seq<Prompt>, todo: seq<Prompt>, deleted: seq<string>, now: int, writeOk: bool): (r: seq<Prompt>)
    ensures |r| == |cur|
    ensures forall i :: 0 <= i < |r| ==> r[i].id == cur[i].id
    decreases |todo|
  {
    if |todo| == 0 then cur
    else
      var p := todo[0];
      var next := if LosesTags(p, deleted) then UpdatePrompt(cur, p.id, TagsPatch(p, deleted), now, writeOk).prompts else cur;
      StripByIdFrom(next, todo[1..], deleted, now, writeOk)
  }

  function StripById(prompts: seq<Prompt>, deleted: seq<string>, now: int, writeOk: bool): (r: seq<Prompt>)
    ensures |r| == |prompts|
    ensures forall i :: 0 <= i < |r| ==> r[i].id == prompts[i].id
  {
    StripByIdFrom(prompts, prompts, deleted, now, writeOk)
  }

  /**
    With two records sharing an id, both carrying a deleted tag, both
    updates land on the first record: the second keeps the deleted tag.
   */
  lemma StripByIdMissesSharedId(p: Prompt, q: Prompt, tag: string, now: int)
    requires p.id == q.id && tag in p.tags && tag in q.tags
    ensures var r := StripById([p, q], [tag], now, true);
      r[1] == q && tag in r[1].tags
  {
    var ps := [p, q];
    LosesTagsIff(p, [tag]);
    LosesTagsIff(q, [tag]);
    var once := UpdatePrompt(ps, p.id, TagsPatch(p, [tag]), now, true).prompts;
    UpdateOfPairHitsFirst(ps, TagsPatch(p, [tag]), now);
    var twice := UpdatePrompt(once, q.id, TagsPatch(q, [tag]), now, true).prompts;
    UpdateOfPairHitsFirst(once, TagsPatch(q, [tag]), now);
    StripByIdFromWrites(ps, ps, [tag], now);
    assert ps[1..] == [q];
    StripByIdFromWrites(once, [q], [tag], now);
    assert [q][1..] == [];
  }

  /** One step of the loop on a record that loses tags: `updatePrompt` by that record's id. */
  lemma StripByIdFromWrites(cur: seq<Prompt>, todo: seq<Prompt>, deleted: seq<string>, now: int)
    requires |todo| > 0 && LosesTags(todo[0], deleted)
    ensures StripByIdFrom(cur, todo, deleted, now, true)
      == StripByIdFrom(UpdatePrompt(cur, todo[0].id, TagsPatch(todo[0], deleted), now, true).prompts, todo[1..], deleted, now, true)
  {
  }

  /** An update by the id both records of a pair carry never touches the second one. */
  lemma UpdateOfPairHitsFirst(ps: seq<Prompt>, patch: Patch, now: int)
    requires |ps| == 2 && ps[0].id == ps[1].id
    ensures var r := UpdatePrompt(ps, ps[0].id, patch, now, true).prompts;
      |r| == 2 && r[0].id == ps[0].id && r[1] == ps[1]
  {
    assert IndexOfId(ps, ps[0].id) == 0;
  }

  /** What `updatePrompt(p.id, { tags })` makes of the record itself when it loses tags. */
  function Stripped(p: Prompt, deleted: seq<string>, now: int): (q: Prompt)
    ensures q.id == p.id && q.createTime == p.createTime
    ensures Subseq(q.tags, p.tags)
    ensures forall t :: t in q.tags <==> t in p.tags && t !in deleted
    ensures forall t :: multiset(q.tags)[t] == if t !in deleted then multiset(p.tags)[t] else 0
    ensures (exists t :: t in p.tags && t in deleted) ==>
      q.title == Trim(p.title) && q.content == Trim(p.content) && q.updateTime == now
    ensures (forall t :: t in p.tags ==> t !in deleted) ==> q == p
  {
    LosesTagsIff(p, deleted);
    if LosesTags(p, deleted) then
      p.(title := Trim(p.title), content := Trim(p.content), tags := TagsOutside(p.tags, deleted), updateTime := now)
    else
      assert TagsOutside(p.tags, deleted) == p.tags;
      p
  }

  /**
    The loop as evidently intended: every prompt that carries a deleted tag
    is rewritten at its own position, whatever ids the collection holds.
   */
  function StripDeletedTags(prompts: seq<Prompt>, deleted: seq<string>, now: int): (r: seq<Prompt>)
    ensures |r| == |prompts|
    ensures forall i :: 0 <= i < |r| ==> r[i].id == prompts[i].id && r[i].createTime == prompts[i].createTime
    ensures forall i :: 0 <= i < |r| ==> Subseq(r[i].tags, prompts[i].tags)
    ensures forall i :: 0 <= i < |r| ==> forall t :: t in r[i].tags <==> t in prompts[i].tags && t !in deleted
    ensures forall i :: 0 <= i < |r| ==> forall t ::
      multiset(r[i].tags)[t] == if t !in deleted then multiset(prompts[i].tags)[t] else 0
    ensures forall i :: 0 <= i < |r| ==> (exists t :: t in prompts[i].tags && t in deleted) ==>
      r[i].title == Trim(prompts[i].title) && r[i].content == Trim(prompts[i].content) && r[i].updateTime == now
    ensures forall i :: 0 <= i < |r| ==> (forall t :: t in prompts[i].tags ==> t !in deleted) ==> r[i] == prompts[i]
  {
    seq(|prompts|, i requires 0 <= i < |prompts| => Stripped(prompts[i], deleted, now))
  }

  predicate UniqueIds(prompts: seq<Prompt>) {
    forall i, j :: 0 <= i < j < |prompts| ==> prompts[i].id != prompts[j].id
  }

  /** The first `k` records stripped, the rest as they were. */
  function PartlyStripped(prompts: seq<Prompt>, k: nat, deleted: seq<string>, now: int): (r: seq<Prompt>)
    requires k <= |prompts|
    ensures |r| == |prompts|
    ensures forall i :: 0 <= i < |r| ==> r[i].id == prompts[i].id
  {
    seq(|prompts|, i requires 0 <= i < |prompts| => if i < k then Stripped(prompts[i], deleted, now) else prompts[i])
  }

  /** When ids are unique, the loop as written does what was intended. */
  lemma StripByIdAgrees(prompts: seq<Prompt>, deleted: seq<string>, now: int)
    ensures UniqueIds(prompts) ==> StripById(prompts, deleted, now, true) == StripDeletedTags(prompts, deleted, now)
  {
    if UniqueIds(prompts) {
      assert PartlyStripped(prompts, 0, deleted, now) == prompts;
      assert prompts[0..] == prompts;
      StripFromPartly(prompts, 0, deleted, now);
      assert PartlyStripped(prompts, |prompts|, deleted, now) == StripDeletedTags(prompts, deleted, now);
    }
  }

  lemma {:induction false} StripFromPartly(prompts: seq<Prompt>, k: nat, deleted: seq<string>, now: int)
    requires UniqueIds(prompts) && k <= |prompts|
    ensures StripByIdFrom(PartlyStripped(prompts, k, deleted, now), prompts[k..], deleted, now, true)
         == PartlyStripped(prompts, |prompts|, deleted, now)
    decreases |prompts| - k
  {
    if k < |prompts| {
      var cur := PartlyStripped(prompts, k, deleted, now);
      var p := prompts[k];
      var next := if LosesTags(p, deleted) then UpdatePrompt(cur, p.id, TagsPatch(p, deleted), now, true).prompts else cur;
      StripStep(prompts, k, deleted, now);
      assert next == PartlyStripped(prompts, k + 1, deleted, now);
      assert prompts[k..][0] == p && prompts[k..][1..] == prompts[k + 1..];
      assert StripByIdFrom(cur, prompts[k..], deleted, now, true) == StripByIdFrom(next, prompts[k + 1..], deleted, now, true);
      StripFromPartly(prompts, k + 1, deleted, now);
    }
  }

  /** One pass of the loop turns the first `k` stripped records into the first `k + 1`. */
  lemma StripStep(prompts: seq<Prompt>, k: nat, deleted: seq<string>, now: int)
    requires UniqueIds(prompts) && k < |prompts|
    ensures var cur := PartlyStripped(prompts, k, deleted, now);
      var p := prompts[k];
      (if LosesTags(p, deleted) then UpdatePrompt(cur, p.id, TagsPatch(p, deleted), now, true).prompts else cur)
        == PartlyStripped(prompts, k + 1, deleted, now)
  {
    if LosesTags(prompts[k], deleted) {
      StripStepWrites(prompts, k, deleted, now);
    } else {
      StripStepSkips(prompts, k, deleted, now);
    }
  }

  lemma StripStepWrites(prompts: seq<Prompt>, k: nat, deleted: seq<string>, now: int)
    requires UniqueIds(prompts) && k < |prompts| && LosesTags(prompts[k], deleted)
    ensures UpdatePrompt(PartlyStripped(prompts, k, deleted, now), prompts[k].id, TagsPatch(prompts[k], deleted), now, true).prompts
         == PartlyStripped(prompts, k + 1, deleted, now)
  {
    var cur := PartlyStripped(prompts, k, deleted, now);
    PartlyStrippedUnique(prompts, k, deleted, now);
    UpdateWithTagsPatch(cur, k, deleted, now);
    PartlyStrippedNext(prompts, k, deleted, now);
  }

  lemma PartlyStrippedUnique(prompts: seq<Prompt>, k: nat, deleted: seq<string>, now: int)
    requires UniqueIds(prompts) && k <= |prompts|
    ensures UniqueIds(PartlyStripped(prompts, k, deleted, now))
  {
  }

  lemma PartlyStrippedNext(prompts: seq<Prompt>, k: nat, deleted: seq<string>, now: int)
    requires k < |prompts|
    ensures PartlyStripped(prompts, k, deleted, now)[k := Stripped(prompts[k], deleted, now)] == PartlyStripped(prompts, k + 1, deleted, now)
  {
  }

  lemma StripStepSkips(prompts: seq<Prompt>, k: nat, deleted: seq<string>, now: int)
    requires k < |prompts| && !LosesTags(prompts[k], deleted)
    ensures PartlyStripped(prompts, k, deleted, now) == PartlyStripped(prompts, k + 1, deleted, now)
  {
    LosesTagsIff(prompts[k], deleted);
    assert Stripped(prompts[k], deleted, now) == prompts[k];
  }

  /** `updatePrompt` with the tags patch, in a collection of unique ids, rewrites the record at its own position. */
  lemma UpdateWithTagsPatch(cur: seq<Prompt>, k: nat, deleted: seq<string>, now: int)
    requires UniqueIds(cur) && k < |cur| && LosesTags(cur[k], deleted)
    ensures UpdatePrompt(cur, cur[k].id, TagsPatch(cur[k], deleted), now, true).prompts == cur[k := Stripped(cur[k], deleted, now)]
  {
    var p := cur[k];
    assert HasId(cur, p.id) by {
      assert p in cur;
    }
    var i := IndexOfId(cur, p.id);
    assert i == k;
  }

  /** The outcome of `handleSaveSettings()`. */
  datatype SettingsSaved = SettingsSaved(store: Store, ok: bool, deletedCount: nat)

  /**
    `handleSaveSettings()` with `temp` the working list, as written: the tags
    saved before but missing from `temp` are stripped through the loop that
    updates by id, and then `temp` is saved as the preset tags. The prompt
    writes (`promptsOk`) happen first and stay whatever the settings write
    (`settingsOk`) does.
   */
  function HandleSaveSettings(store: Store, temp: seq<string>, now: int, promptsOk: bool, settingsOk: bool): (r: SettingsSaved)
    ensures r.ok == settingsOk
    ensures r.deletedCount == |TagsOutside(store.settings.presetTags, temp)|
    ensures |r.store.prompts| == |store.prompts|
    ensures forall i :: 0 <= i < |r.store.prompts| ==> r.store.prompts[i].id == store.prompts[i].id
    ensures !promptsOk ==> r.store.prompts == store.prompts
    ensures !r.ok ==> r.store.settings == store.settings
    ensures r.ok ==>
      && NormalTags(r.store.settings.presetTags)
      && (forall t :: t in r.store.settings.presetTags <==> t in temp && !AllSpace(t))
      && (forall i, j :: 0 <= i < j < |r.store.settings.presetTags| ==>
            FirstIndex(temp, r.store.settings.presetTags[i]) < FirstIndex(temp, r.store.settings.presetTags[j]))
      && r.store.settings.version == store.settings.version
    ensures promptsOk && UniqueIds(store.prompts) ==>
      r.store.prompts == StripDeletedTags(store.prompts, TagsOutside(store.settings.presetTags, temp), now)
  {
    var deleted := TagsOutside(store.settings.presetTags, temp);
    var prompts := if |deleted| > 0 then StripById(store.prompts, deleted, now, promptsOk) else store.prompts;
    StripByIdFailed(store.prompts, store.prompts, deleted, now);
    StripByIdAgrees(store.prompts, deleted, now);
    NothingToStrip(store.prompts, now);
    var saved := UpdatePresetTags(store.settings, temp, settingsOk);
    SettingsSaved(Store(prompts, saved.settings), saved.ok, |deleted|)
  }

  /** When every prompt write fails, the loop leaves the collection as it was. */
  lemma {:induction false} StripByIdFailed(cur: seq<Prompt>, todo: seq<Prompt>, deleted: seq<string>, now: int)
    ensures StripByIdFrom(cur, todo, deleted, now, false) == cur
    decreases |todo|
  {
    if |todo| > 0 {
      StripByIdFailed(cur, todo[1..], deleted, now);
    }
  }

  /** With no deleted tag, the intended strip changes nothing. */
  lemma NothingToStrip(prompts: seq<Prompt>, now: int)
    ensures StripDeletedTags(prompts, [], now) == prompts
  {
  }

  /**
    The handler with the strip evidently intended: every prompt that carries
    a deleted tag loses it, at its own position.
   */
  function HandleSaveSettingsIntended(store: Store, temp: seq<string>, now: int, promptsOk: bool, settingsOk: bool): (r: SettingsSaved)
    ensures r.ok == settingsOk
    ensures !r.ok ==> r.store.settings == store.settings
    ensures |r.store.prompts| == |store.prompts|
    ensures promptsOk ==> forall i :: 0 <= i < |r.store.prompts| ==>
      && r.store.prompts[i].id == store.prompts[i].id
      && Subseq(r.store.prompts[i].tags, store.prompts[i].tags)
      && (forall t :: t in r.store.prompts[i].tags <==>
            t in store.prompts[i].tags && (t in temp || t !in store.settings.presetTags))
      && (forall t :: multiset(r.store.prompts[i].tags)[t] ==
            if t in temp || t !in store.settings.presetTags then multiset(store.prompts[i].tags)[t] else 0)
      && ((forall t :: t in store.prompts[i].tags ==> t in temp || t !in store.settings.presetTags) ==>
            r.store.prompts[i] == store.prompts[i])
    ensures !promptsOk ==> r.store.prompts == store.prompts
    ensures r.ok ==>
      && NormalTags(r.store.settings.presetTags)
      && (forall t :: t in r.store.settings.presetTags <==> t in temp && !AllSpace(t))
      && (forall i, j :: 0 <= i < j < |r.store.settings.presetTags| ==>
            FirstIndex(temp, r.store.settings.presetTags[i]) < FirstIndex(temp, r.store.settings.presetTags[j]))
      && r.store.settings.version == store.settings.version
  {
    var deleted := TagsOutside(store.settings.presetTags, temp);
    var prompts := if promptsOk then StripDeletedTags(store.prompts, deleted, now) else store.prompts;
    var saved := UpdatePresetTags(store.settings, temp, settingsOk);
    SettingsSaved(Store(prompts, saved.settings), saved.ok, |deleted|)
  }

  /** When ids are unique, the handler as written and the intended one agree. */
  lemma HandleSaveSettingsAgrees(store: Store, temp: seq<string>, now: int, promptsOk: bool, settingsOk: bool)
    requires UniqueIds(store.prompts)
    ensures HandleSaveSettings(store, temp, now, promptsOk, settingsOk) == HandleSaveSettingsIntended(store, temp, now, promptsOk, settingsOk)
  {
  }

  // ---------------------------------------------------------------------
  // The prompt list
  // ---------------------------------------------------------------------

  /**
    `refreshPromptList()` for the active tag filter and the search field's
    text: the tag filter applies first, but a search starts again from the
    whole collection and then keeps the prompts carrying the filter tag.
   */
  function RefreshPromptList(prompts: seq<Prompt>, filter: string, keyword: string): (r: seq<Prompt>)
    ensures filter == AllTag ==> r == SearchPrompts(prompts, Str(keyword))
    ensures filter != AllTag && keyword == "" ==> r == FilterPromptsByTag(prompts, filter)
    ensures forall p :: p in r ==> p in prompts
  {
    var byTag := if filter != AllTag then FilterPromptsByTag(prompts, filter) else prompts;
    if keyword == "" then byTag
    else
      var found := SearchPrompts(prompts, Str(keyword));
      if filter != AllTag then Filter(found, (p: Prompt) => filter in p.tags) else found
  }

  /**
    With a real tag filter active, the list is the search applied to the
    filtered prompts: the prompts that pass both, in collection order.
   */
  lemma RefreshIsIntersection(prompts: seq<Prompt>, filter: string, keyword: string)
    requires filter != AllTag && filter != ""
    ensures RefreshPromptList(prompts, filter, keyword) == SearchPrompts(FilterPromptsByTag(prompts, filter), Str(keyword))
  {
    var hasTag := (p: Prompt) => filter in p.tags;
    var byTag := Filter(prompts, hasTag);
    assert FilterPromptsByTag(prompts, filter) == byTag;
    if keyword != "" {
      var term := SearchTerm(Str(keyword));
      if term.Some? {
        var matches := (p: Prompt) => MatchesTerm(p, term.value);
        var found := Filter(prompts, matches);
        assert SearchPrompts(prompts, Str(keyword)) == found;
        assert RefreshPromptList(prompts, filter, keyword) == Filter(found, hasTag);
        assert SearchPrompts(byTag, Str(keyword)) == Filter(byTag, matches);
        var both := (x: Prompt) => matches(x) && hasTag(x);
        var both' := (x: Prompt) => hasTag(x) && matches(x);
        FilterFilter(prompts, matches, hasTag, both);
        FilterFilter(prompts, hasTag, matches, both');
        FilterCongruent(prompts, both, both');
        assert Filter(found, hasTag) == Filter(byTag, matches);
      } else {
        assert SearchPrompts(prompts, Str(keyword)) == prompts;
        assert RefreshPromptList(prompts, filter, keyword) == Filter(prompts, hasTag);
      }
    }
  }

  // ---------------------------------------------------------------------
  // The tag-filter bar
  // ---------------------------------------------------------------------

  /** Every tag of every prompt, prompt by prompt, in order. */
  function UsedTags(prompts: seq<Prompt>): (r: seq<string>)
    ensures forall t :: t in r <==> exists p :: p in prompts && t in p.tags
  {
    if |prompts| == 0 then []
    else
      assert forall p :: p in prompts <==> p == prompts[0] || p in prompts[1..];
      prompts[0].tags + UsedTags(prompts[1..])
  }

  /** A button of the tag-filter bar: its tag and the count shown with it. */
  datatype TagButton = TagButton(tag: string, count: nat)

  /** The text of a button: `全部(n)` for the all-button, `tag(n)` otherwise. */
  function ButtonLabel(b: TagButton): string {
    (if b.tag == AllTag then "全部" else b.tag) + "(" + NatToString(b.count) + ")"
  }

  /** The tags of the buttons, in order. */
  function ButtonTags(bs: seq<TagButton>): (ts: seq<string>)
    ensures |ts| == |bs| && forall i :: 0 <= i < |bs| ==> ts[i] == bs[i].tag
  {
    seq(|bs|, i requires 0 <= i < |bs| => bs[i].tag)
  }

  /**
    `updateTagFilter()`: one button per distinct tag among `"all"`, the
    preset tags and the tags the prompts use, in that order of first
    appearance; the all-button counts the prompts, any other button counts
    the occurrences of its tag across all tag lists.
   */
  function TagFilter(preset: seq<string>, prompts: seq<Prompt>): (bs: seq<TagButton>)
    ensures |bs| > 0 && bs[0] == TagButton(AllTag, |prompts|)
    ensures NoDup(ButtonTags(bs))
    ensures forall t :: t in ButtonTags(bs) <==> t == AllTag || t in preset || exists p :: p in prompts && t in p.tags
    ensures forall i :: 0 <= i < |bs| && bs[i].tag != AllTag ==> bs[i].count == multiset(UsedTags(prompts))[bs[i].tag]
    ensures NoDup([AllTag] + preset) ==> |preset| < |bs| && ButtonTags(bs)[1..|preset| + 1] == preset
  {
    var names := Dedup([AllTag] + preset + UsedTags(prompts));
    TagNamesOrder(preset, UsedTags(prompts));
    var bs := seq(|names|, i requires 0 <= i < |names| =>
      TagButton(names[i], if names[i] == AllTag then |prompts| else multiset(UsedTags(prompts))[names[i]]));
    assert ButtonTags(bs) == names;
    bs
  }

  /** `new Set(['all', ...preset])` keeps `"all"` first and, without repetition, the preset tags next. */
  lemma TagNamesOrder(preset: seq<string>, used: seq<string>)
    ensures var names := Dedup([AllTag] + preset + used);
      && |names| > 0 && names[0] == AllTag
      && (NoDup([AllTag] + preset) ==> |preset| < |names| && names[1..|preset| + 1] == preset)
  {
    DedupKeepsPrefix([AllTag], preset + used);
    assert [AllTag] + preset + used == [AllTag] + (preset + used);
    if NoDup([AllTag] + preset) {
      DedupKeepsPrefix([AllTag] + preset, used);
    }
  }

  /**
    When no prompt lists a tag twice, a tag's count is the number of prompts
    that the filter for that tag shows.
   */
  lemma {:induction false} TagCountIsFilterLength(prompts: seq<Prompt>, tag: string)
    requires tag != AllTag && tag != ""
    requires forall p :: p in prompts ==> NoDup(p.tags)
    ensures multiset(UsedTags(prompts))[tag] == |FilterPromptsByTag(prompts, tag)|
  {
    if |prompts| > 0 {
      TagCountIsFilterLength(prompts[1..], tag);
      NoDupCount(prompts[0].tags, tag);
      assert multiset(UsedTags(prompts)) == multiset(prompts[0].tags) + multiset(UsedTags(prompts[1..]));
    }
  }

  /** In a sequence without repetition an element occurs once or not at all. */
  lemma {:induction false} NoDupCount(s: seq<string>, x: string)
    requires NoDup(s)
    ensures multiset(s)[x] == if x in s then 1 else 0
  {
    if |s| > 0 {
      assert NoDup(s[1..]);
      NoDupCount(s[1..], x);
      assert s == [s[0]] + s[1..];
      assert s[0] !in s[1..];
    }
  }

  // ---------------------------------------------------------------------
  // Closing the settings dialog
  // ---------------------------------------------------------------------

  /** The check on closing the settings dialog, and the working list it leaves behind. */
  datatype CloseCheck = CloseCheck(changed: bool, temp: seq<string>)

  /**
    The settings dialog's close handler compares the sorted working list
    with the sorted saved list. `sort()` sorts the working list in place, so
    the working list is left sorted.
   */
  function HasUnsavedChanges(temp: seq<string>, saved: seq<string>): (r: CloseCheck)
    ensures r.changed <==> multiset(temp) != multiset(saved)
    ensures JsSort.Sorted(r.temp) && multiset(r.temp) == multiset(temp)
  {
    JsSort.SortEqualIff(temp, saved);
    CloseCheck(JsSort.Sort(temp) != JsSort.Sort(saved), JsSort.Sort(temp))
  }
}

=== FILE: sync.dfy ===
/**
  The cloud-sync script: the sync state record kept in storage, the access
  token, and the transitions of pulling (remote overrides local), pushing
  (local overrides remote), creating a remote store and the pull on page
  load. The remote service is replaced by the response each request gets,
  passed in as a parameter; the clock and the random part of a new device id
  are parameters too.
 */
module Sync {
  import opened Common
  import opened JsValues
  import opened Data
  import Utils
  import Transfer

  datatype Status = Idle | Syncing | Ok | Error

  /** The sync state as `getSyncState` returns it. */
  datatype SyncState = SyncState(
    gistId: string,
    lastETag: string,
    lastSyncAt: int,
    deviceId: string,
    status: Status,
    lastError: string)

  /**
    The sync record as storage holds it, field by field: a missing field is
    `None`. The same shape serves as the patch `saveSyncState` overlays.
   */
  datatype Stored = Stored(
    gistId: Option<string>,
    lastETag: Option<string>,
    lastSyncAt: Option<int>,
    deviceId: Option<string>,
    status: Option<Status>,
    lastError: Option<string>)

  const Empty: Stored := Stored(None, None, None, None, None, None)

  /** A stored text field that is missing or empty reads as the empty default. */
  function TextOr(f: Option<string>): string {
    if f.Some? then f.value else ""
  }

  /** The stored record with the defaults of `getSyncState` filled in; `deviceId` is left as stored. */
  function View(raw: Stored): (s: SyncState)
    ensures s.gistId == TextOr(raw.gistId) && s.lastETag == TextOr(raw.lastETag)
    ensures s.lastSyncAt == (if raw.lastSyncAt.Some? then raw.lastSyncAt.value else 0)
    ensures s.status == (if raw.status.Some? then raw.status.value else Idle)
    ensures s.lastError == TextOr(raw.lastError) && s.deviceId == TextOr(raw.deviceId)
  {
    SyncState(
      TextOr(raw.gistId),
      TextOr(raw.lastETag),
      raw.lastSyncAt.GetOr(0),
      TextOr(raw.deviceId),
      raw.status.GetOr(Idle),
      TextOr(raw.lastError))
  }

  /** The full record `saveSyncState` writes back. */
  function Full(s: SyncState): (raw: Stored)
    ensures View(raw) == s
  {
    Stored(Some(s.gistId), Some(s.lastETag), Some(s.lastSyncAt), Some(s.deviceId), Some(s.status), Some(s.lastError))
  }

  const DevicePrefix: string := "device_"

  /**
    The id `ensureDeviceId` generates: the prefix, the clock in base 36 and
    at most six base-36 digits of a random fraction.
   */
  function NewDeviceId(clock: nat, fractionDigits: string): (id: string)
    ensures var k := if |fractionDigits| < 6 then |fractionDigits| else 6;
      && |id| > |DevicePrefix| + k
      && id[..|DevicePrefix|] == DevicePrefix
      && id[|id| - k..] == fractionDigits[..k]
      && DigitsValue(id[|DevicePrefix|..|id| - k], 36) == clock
  {
    var k := if |fractionDigits| < 6 then |fractionDigits| else 6;
    var time := RadixDigits(clock, 36);
    RadixDigitsRoundTrip(clock, 36);
    var id := DevicePrefix + time + fractionDigits[..k];
    assert id[|DevicePrefix|..|id| - k] == time;
    id
  }

  /** The sync state and the record storage holds after reading it. */
  datatype Loaded = Loaded(state: SyncState, stored: Stored)

  /**
    `getSyncState()`: the stored fields with their defaults. When no device
    id is stored, `device` (the id `ensureDeviceId` generates) is returned
    and also written into the stored record.
   */
  function GetSyncState(raw: Stored, device: string): (r: Loaded)
    ensures r.state.gistId == TextOr(raw.gistId) && r.state.lastETag == TextOr(raw.lastETag)
    ensures r.state.lastSyncAt == (if raw.lastSyncAt.Some? then raw.lastSyncAt.value else 0)
    ensures r.state.status == (if raw.status.Some? then raw.status.value else Idle)
    ensures r.state.lastError == TextOr(raw.lastError)
    ensures TextOr(raw.deviceId) != "" ==> r.state.deviceId == raw.deviceId.value && r.stored == raw
    ensures TextOr(raw.deviceId) == "" ==> r.state.deviceId == device && r.stored == raw.(deviceId := Some(device))
  {
    if TextOr(raw.deviceId) != "" then Loaded(View(raw), raw)
    else Loaded(View(raw).(deviceId := device), raw.(deviceId := Some(device)))
  }

  /** `{ ...current, ...patch }`: the patch's fields win, the others stay. */
  function Overlay(current: SyncState, patch: Stored): (s: SyncState)
    ensures s.gistId == (if patch.gistId.Some? then patch.gistId.value else current.gistId)
    ensures s.lastETag == (if patch.lastETag.Some? then patch.lastETag.value else current.lastETag)
    ensures s.lastSyncAt == (if patch.lastSyncAt.Some? then patch.lastSyncAt.value else current.lastSyncAt)
    ensures s.deviceId == (if patch.deviceId.Some? then patch.deviceId.value else current.deviceId)
    ensures s.status == (if patch.status.Some? then patch.status.value else current.status)
    ensures s.lastError == (if patch.lastError.Some? then patch.lastError.value else current.lastError)
  {
    SyncState(
      patch.gistId.GetOr(current.gistId),
      patch.lastETag.GetOr(current.lastETag),
      patch.lastSyncAt.GetOr(current.lastSyncAt),
      patch.deviceId.GetOr(current.deviceId),
      patch.status.GetOr(current.status),
      patch.lastError.GetOr(current.lastError))
  }

  /**
    `saveSyncState(patch)`: reads the state, overlays the patch and writes
    the whole record back. The sync-state write is taken to succeed.
   */
  function SaveSyncState(raw: Stored, patch: Stored, device: string): (r: Loaded)
    ensures r.stored == Full(r.state)
    ensures r.state == Overlay(GetSyncState(raw, device).state, patch)
  {
    var next := Overlay(GetSyncState(raw, device).state, patch);
    Loaded(next, Full(next))
  }

  /**
    Reading the record `saveSyncState` wrote gives back the state it
    returned, as long as that state carries a device id.
   */
  lemma SaveThenGet(raw: Stored, patch: Stored, device: string, later: string)
    requires SaveSyncState(raw, patch, device).state.deviceId != ""
    ensures GetSyncState(SaveSyncState(raw, patch, device).stored, later) == SaveSyncState(raw, patch, device)
  {
  }

  /** Loading a second time reads back what the first load stored. */
  lemma LoadTwice(raw: Stored, device: string)
    ensures GetSyncState(GetSyncState(raw, device).stored, device) == GetSyncState(raw, device)
  {
  }

  /** Loading a full record gives its state back, with the device id filled in when it is empty. */
  lemma ReloadFull(s: SyncState, device: string)
    ensures GetSyncState(Full(s), device).state == (if s.deviceId != "" then s else s.(deviceId := device))
  {
  }

  /** A patch that names only the status and the last error. */
  function StatusPatch(status: Status, lastError: string): Stored {
    Empty.(status := Some(status), lastError := Some(lastError))
  }

  /** The patch that records a finished exchange with the remote store. */
  function SyncedPatch(etag: string, now: int): Stored {
    Empty.(lastETag := Some(etag), lastSyncAt := Some(now), status := Some(Ok))
  }

  // ---------------------------------------------------------------------
  // Access token and credentials
  // ---------------------------------------------------------------------

  /** `getPat()`: the stored token, or `""` when none is stored. */
  function GetPat(slot: Option<string>): string {
    TextOr(slot)
  }

  /**
    `savePat(pat)`: the token's storage slot after the call. An empty token
    removes the slot; any other is written. The write is taken to succeed.
   */
  function SavePat(pat: string): (slot: Option<string>)
    ensures slot.None? <==> pat == ""
    ensures GetPat(slot) == pat
  {
    if pat == "" then None else Some(pat)
  }

  /** The whole local state the sync script reads and writes; `pat` is the token as `getPat()` reads it. */
  datatype World = World(store: Store, sync: Stored, pat: string)

  /**
    `setCredentials({ pat, gistId })`: each argument that is a string is
    trimmed and saved; an argument that is not a string (`None`) is ignored.
    The status refresh that follows reads the sync state, which stores a
    device id if none is stored yet.
   */
  function SetCredentials(w: World, pat: Option<string>, gistId: Option<string>, device: string): (r: World)
    ensures r.store == w.store
    ensures pat.Some? ==> r.pat == Trim(pat.value)
    ensures pat.None? ==> r.pat == w.pat
    ensures gistId.Some? ==> View(r.sync) == GetSyncState(w.sync, device).state.(gistId := Trim(gistId.value))
    ensures gistId.Some? ==> View(r.sync).status == View(w.sync).status && View(r.sync).lastETag == View(w.sync).lastETag
    ensures gistId.None? ==> r.sync == GetSyncState(w.sync, device).stored
  {
    var p := if pat.Some? then GetPat(SavePat(Trim(pat.value))) else w.pat;
    var s := if gistId.Some? then SaveSyncState(w.sync, Empty.(gistId := Some(Trim(gistId.value))), device).stored
      else GetSyncState(w.sync, device).stored;
    World(w.store, s, p)
  }

  /**
    Reading the state back after `setCredentials` gives the trimmed remote
    id, and every other field as it read before the call.
   */
  lemma SetCredentialsThenGet(w: World, pat: Option<string>, gistId: string, device: string, later: string)
    requires device != ""
    ensures var r := SetCredentials(w, pat, Some(gistId), device);
      GetSyncState(r.sync, later).state == GetSyncState(w.sync, device).state.(gistId := Trim(gistId))
  {
    var loaded := GetSyncState(w.sync, device);
    assert loaded.state.deviceId != "";
    SaveThenGet(w.sync, Empty.(gistId := Some(Trim(gistId))), device, later);
  }

  /** `mapStatus(status)`: the label shown for a status. */
  function MapStatus(s: Status): (text: string)
    ensures s == Syncing <==> text == "同步中…"
    ensures s == Ok <==> text == "已就绪"
    ensures s == Error <==> text == "错误"
    ensures s == Idle <==> text == "未配置"
  {
    match s
    case Syncing => "同步中…"
    case Ok => "已就绪"
    case Error => "错误"
    case Idle => "未配置"
  }

  // ---------------------------------------------------------------------
  // Requests and responses
  // ---------------------------------------------------------------------

  /** What the fetch of the remote document ends with. */
  datatype FetchResponse =
    | NotModified
    | Fresh(etag: string, payload: Value)
    | FetchFailed(message: string)

  /** What the update of the remote document ends with. */
  datatype UpdateResponse = Updated(etag: string) | UpdateFailed(message: string)

  /** What the creation of a remote document ends with. */
  datatype CreateResponse = Created(gistId: string, etag: string) | CreateFailed(message: string)

  /** A fetch of the remote document; the conditional header is sent only with a known ETag. */
  datatype FetchRequest = FetchRequest(gistId: string, ifNoneMatch: Option<string>)

  /** The outcome of an operation that may throw: its value, or the message of the error. */
  datatype Result<T> = Success(value: T) | Failure(message: string)

  const ConfigMissing: string := "请先配置 Token 与 Gist ID"
  const TokenMissing: string := "请先填写 Token"
  const BadRemoteData: string := "远端数据结构无效"
  const ImportFailedFallback: string := "导入失败"

  /** The fetch `fetchRemote` sends for a state. */
  function FetchFor(s: SyncState): (q: FetchRequest)
    ensures q.gistId == s.gistId
    ensures q.ifNoneMatch.Some? <==> s.lastETag != ""
    ensures q.ifNoneMatch.Some? ==> q.ifNoneMatch.value == s.lastETag
  {
    FetchRequest(s.gistId, if s.lastETag != "" then Some(s.lastETag) else None)
  }

  const PayloadVersion: int := 1

  /** `buildPayload()`: format version 1, the time, the device id and the exported data. */
  function BuildPayload(store: Store, deviceId: string, now: int): (v: Value)
    ensures Get(v, "version") == Num(PayloadVersion)
    ensures Get(v, "updatedAt") == Num(now)
    ensures Get(v, "deviceId") == Str(deviceId)
    ensures Get(v, "data") == Transfer.ExportValue(Transfer.ExportData(store, now))
  {
    Obj(map[
      "version" := Num(PayloadVersion),
      "updatedAt" := Num(now),
      "deviceId" := Str(deviceId),
      "data" := Transfer.ExportValue(Transfer.ExportData(store, now))])
  }

  // ---------------------------------------------------------------------
  // Pull: the remote document overrides the local data
  // ---------------------------------------------------------------------

  /** The world after a pull, its result (`true` when local data was replaced) and the fetch it sent. */
  datatype Pulled = Pulled(world: World, result: Result<bool>, sent: Option<FetchRequest>)

  /** Token and remote id are both present. */
  predicate Configured(pat: string, s: SyncState) {
    pat != "" && s.gistId != ""
  }

  /**
    `pullOverrideLocal()`, given the response its fetch gets. Without token
    or remote id it fails before doing anything else. Otherwise it records
    the syncing status and fetches; an unchanged remote document only marks
    the state synced; a new one is imported without merging, which replaces
    the local prompts, and only then are its ETag and the synced status
    recorded. Every error leaves the status at syncing.
   */
  function Pull(w: World, resp: FetchResponse, device: string, freshId: nat -> string, now: int, writeOk: bool): (r: Pulled)
    ensures r.world.pat == w.pat
    ensures r.result.Failure? ==> r.world.store == w.store
    ensures !Configured(w.pat, GetSyncState(w.sync, device).state) <==> r.sent.None?
    ensures r.sent.None? ==>
      && r.result == Failure(ConfigMissing)
      && r.world.sync == GetSyncState(w.sync, device).stored
    ensures r.sent.Some? ==> r.sent.value == FetchFor(GetSyncState(w.sync, device).state)
    ensures r.sent.Some? && r.result.Failure? ==>
      View(r.world.sync).status == Syncing && View(r.world.sync).lastError == ""
    ensures r.sent.Some? && resp.NotModified? ==>
      && r.result == Success(false)
      && r.world.store == w.store
      && View(r.world.sync).status == Ok
      && View(r.world.sync).lastSyncAt == now
      && View(r.world.sync).lastETag == GetSyncState(w.sync, device).state.lastETag
    ensures r.sent.Some? && resp.FetchFailed? ==> r.result == Failure(resp.message)
    ensures r.sent.Some? && resp.Fresh? && r.result.Success? ==>
      && r.result.value
      && r.world.store == Transfer.ImportData(w.store, Get(resp.payload, "data"), false, freshId, now, writeOk).store
      && View(r.world.sync).status == Ok
      && View(r.world.sync).lastETag == resp.etag
      && View(r.world.sync).lastSyncAt == now
    ensures r.sent.Some? && resp.Fresh? ==>
      (r.result.Success? <==>
        && Truthy(resp.payload) && Truthy(Get(resp.payload, "data"))
        && Transfer.ImportData(w.store, Get(resp.payload, "data"), false, freshId, now, writeOk).result.success)
  {
    var loaded := GetSyncState(w.sync, device);
    if !Configured(w.pat, loaded.state) then
      Pulled(w.(sync := loaded.stored), Failure(ConfigMissing), None)
    else
      var syncing := SaveSyncState(loaded.stored, StatusPatch(Syncing, ""), device);
      var sent := Some(FetchFor(loaded.state));
      var w1 := w.(sync := syncing.stored);
      match resp
      case FetchFailed(msg) => Pulled(w1, Failure(msg), sent)
      case NotModified =>
        var done := SaveSyncState(syncing.stored, Empty.(status := Some(Ok), lastSyncAt := Some(now)), device);
        Pulled(w1.(sync := done.stored), Success(false), sent)
      case Fresh(etag, payload) =>
        if !Truthy(payload) || !Truthy(Get(payload, "data")) then Pulled(w1, Failure(BadRemoteData), sent)
        else
          var imported := Transfer.ImportData(w.store, Get(payload, "data"), false, freshId, now, writeOk);
          if !imported.result.success then
            var msg := if imported.result.message != "" then imported.result.message else ImportFailedFallback;
            Pulled(w1, Failure(msg), sent)
          else
            var done := SaveSyncState(syncing.stored, SyncedPatch(etag, now), device);
            Pulled(World(imported.store, done.stored, w.pat), Success(true), sent)
  }

  // ---------------------------------------------------------------------
  // Push: the local data overrides the remote document
  // ---------------------------------------------------------------------

  /** The world after a push, its result, and the payload it sent. */
  datatype Pushed = Pushed(world: World, result: Result<bool>, sent: Option<Value>)

  /**
    `pushOverrideRemote()`, given the response its update gets. The local
    prompts and settings are never changed; a failed update leaves the status
    at syncing.
   */
  function Push(w: World, resp: UpdateResponse, device: string, now: int): (r: Pushed)
    ensures r.world.store == w.store && r.world.pat == w.pat
    ensures !Configured(w.pat, GetSyncState(w.sync, device).state) <==> r.sent.None?
    ensures r.sent.None? ==>
      && r.result == Failure(ConfigMissing)
      && r.world.sync == GetSyncState(w.sync, device).stored
    ensures r.sent.Some? ==>
      r.sent.value == BuildPayload(w.store, GetSyncState(w.sync, device).state.deviceId, now)
    ensures r.sent.Some? && resp.UpdateFailed? ==>
      && r.result == Failure(resp.message)
      && View(r.world.sync).status == Syncing
      && View(r.world.sync).lastError == ""
    ensures r.sent.Some? && resp.Updated? ==>
      && r.result == Success(true)
      && View(r.world.sync).status == Ok
      && View(r.world.sync).lastETag == resp.etag
      && View(r.world.sync).lastSyncAt == now
      && View(r.world.sync).gistId == GetSyncState(w.sync, device).state.gistId
  {
    var loaded := GetSyncState(w.sync, device);
    if !Configured(w.pat, loaded.state) then
      Pushed(w.(sync := loaded.stored), Failure(ConfigMissing), None)
    else
      LoadTwice(w.sync, device);
      var syncing := SaveSyncState(loaded.stored, StatusPatch(Syncing, ""), device);
      ReloadFull(syncing.state, device);
      var payload := BuildPayload(w.store, syncing.state.deviceId, now);
      match resp
      case UpdateFailed(msg) => Pushed(w.(sync := syncing.stored), Failure(msg), Some(payload))
      case Updated(etag) =>
        var done := SaveSyncState(syncing.stored, SyncedPatch(etag, now), device);
        Pushed(w.(sync := done.stored), Success(true), Some(payload))
  }

  // ---------------------------------------------------------------------
  // Creating and checking the remote document
  // ---------------------------------------------------------------------

  /** The world after creating a remote document, the new id on success, and the payload sent. */
  datatype Bound = Bound(world: World, result: Result<string>, sent: Option<Value>)

  /**
    `createAndBindGist()`: needs only the token. The payload is built (which
    reads the sync state) and sent; on success the new id and ETag are
    recorded with the synced status and no error. There is no syncing phase.
   */
  function CreateAndBindGist(w: World, resp: CreateResponse, device: string, now: int): (r: Bound)
    ensures r.world.store == w.store && r.world.pat == w.pat
    ensures w.pat == "" <==> r.sent.None?
    ensures w.pat == "" ==> r == Bound(w, Failure(TokenMissing), None)
    ensures r.sent.Some? ==> r.sent.value == BuildPayload(w.store, GetSyncState(w.sync, device).state.deviceId, now)
    ensures r.sent.Some? && resp.CreateFailed? ==>
      r.result == Failure(resp.message) && r.world.sync == GetSyncState(w.sync, device).stored
    ensures r.sent.Some? && resp.Created? ==>
      && r.result == Success(resp.gistId)
      && View(r.world.sync).gistId == resp.gistId
      && View(r.world.sync).lastETag == resp.etag
      && View(r.world.sync).status == Ok
      && View(r.world.sync).lastError == ""
      && View(r.world.sync).lastSyncAt == GetSyncState(w.sync, device).state.lastSyncAt
  {
    if w.pat == "" then Bound(w, Failure(TokenMissing), None)
    else
      var loaded := GetSyncState(w.sync, device);
      var payload := BuildPayload(w.store, loaded.state.deviceId, now);
      match resp
      case CreateFailed(msg) => Bound(w.(sync := loaded.stored), Failure(msg), Some(payload))
      case Created(gistId, etag) =>
        var patch := Empty.(gistId := Some(gistId), lastETag := Some(etag), status := Some(Ok), lastError := Some(""));
        var done := SaveSyncState(loaded.stored, patch, device);
        Bound(w.(sync := done.stored), Success(gistId), Some(payload))
  }

  /**
    After a successful bind, the next pull fetches the new remote document
    and names the ETag the bind recorded, when there is one.
   */
  lemma BindThenPull(w: World, gistId: string, etag: string, device: string, bindTime: int,
                     resp: FetchResponse, freshId: nat -> string, pullTime: int, writeOk: bool)
    requires w.pat != "" && gistId != "" && device != ""
    ensures var bound := CreateAndBindGist(w, Created(gistId, etag), device, bindTime);
      && bound.result == Success(gistId)
      && Pull(bound.world, resp, device, freshId, pullTime, writeOk).sent
           == Some(FetchRequest(gistId, if etag != "" then Some(etag) else None))
  {
    var loaded := GetSyncState(w.sync, device);
    var patch := Empty.(gistId := Some(gistId), lastETag := Some(etag), status := Some(Ok), lastError := Some(""));
    SaveThenGet(loaded.stored, patch, device, device);
  }

  /**
    `validateBinding()`: with token and remote id, any answer the fetch gets
    other than an error confirms the binding; nothing but a missing device id
    is written.
   */
  function ValidateBinding(w: World, resp: FetchResponse, device: string): (r: (World, Result<bool>))
    ensures r.0 == w.(sync := GetSyncState(w.sync, device).stored)
    ensures !Configured(w.pat, GetSyncState(w.sync, device).state) ==> r.1 == Failure(ConfigMissing)
    ensures Configured(w.pat, GetSyncState(w.sync, device).state) ==>
      (r.1 == Success(true) <==> !resp.FetchFailed?)
  {
    var loaded := GetSyncState(w.sync, device);
    var w1 := w.(sync := loaded.stored);
    if !Configured(w.pat, loaded.state) then (w1, Failure(ConfigMissing))
    else if resp.FetchFailed? then (w1, Failure(resp.message))
    else (w1, Success(true))
  }

  // ---------------------------------------------------------------------
  // Pull on page load
  // ---------------------------------------------------------------------

  /** `String(e.message || e)` for a thrown `Error`. */
  function ErrorText(message: string): string {
    if message != "" then message else "Error"
  }

  /**
    `initOnLoad()`: skipped without token or remote id; otherwise a pull
    whose failure is recorded as the error status with its message and is
    not passed on.
   */
  function InitOnLoad(w: World, resp: FetchResponse, device: string, freshId: nat -> string, now: int, writeOk: bool): (r: World)
    ensures !Configured(w.pat, GetSyncState(w.sync, device).state) ==> r == w.(sync := GetSyncState(w.sync, device).stored)
    ensures Configured(w.pat, GetSyncState(w.sync, device).state) ==>
      var p := Pull(w, resp, device, freshId, now, writeOk);
      && r.store == p.world.store
      && (p.result.Success? ==> r == p.world)
      && (p.result.Failure? ==>
            View(r.sync).status == Error && View(r.sync).lastError == ErrorText(p.result.message))
  {
    var loaded := GetSyncState(w.sync, device);
    if !Configured(w.pat, loaded.state) then w.(sync := loaded.stored)
    else
      var p := Pull(w, resp, device, freshId, now, writeOk);
      if p.result.Success? then p.world
      else p.world.(sync := SaveSyncState(p.world.sync, StatusPatch(Error, ErrorText(p.result.message)), device).stored)
  }
  // ---------------------------------------------------------------------
  // Properties across operations
  // ---------------------------------------------------------------------

  /**
    What one device pushes, another device pulls: after a successful push
    from `a`, a pull on a configured `b` that receives the pushed payload
    replaces `b`'s prompts with `a`'s, stamped with the pull's time and in
    reverse order, and `b`'s settings with `a`'s.
   */
  lemma PushThenPull(a: World, b: World, up: UpdateResponse, etag: string,
                     deviceA: string, deviceB: string, pushTime: int, freshId: nat -> string, pullTime: int)
    requires up.Updated?
    requires Configured(a.pat, GetSyncState(a.sync, deviceA).state)
    requires Configured(b.pat, GetSyncState(b.sync, deviceB).state)
    requires Transfer.Restorable(a.store.prompts, b.store.settings.presetTags)
    requires NormalTags(a.store.settings.presetTags)
    ensures var pushed := Push(a, up, deviceA, pushTime);
      && pushed.result == Success(true)
      && pushed.sent.Some?
      && var pulled := Pull(b, Fresh(etag, pushed.sent.value), deviceB, freshId, pullTime, true);
      && pulled.result == Success(true)
      && pulled.world.store.prompts == Reverse(Transfer.Restamp(a.store.prompts, pullTime))
      && pulled.world.store.settings == a.store.settings
      && View(pulled.world.sync).lastETag == etag
  {
    var payload := BuildPayload(a.store, GetSyncState(a.sync, deviceA).state.deviceId, pushTime);
    assert Push(a, up, deviceA, pushTime).sent == Some(payload);
    Transfer.ImportRoundTrip(a.store, b.store, pushTime, freshId, pullTime);
    PullOfImportable(b, etag, payload, deviceB, freshId, pullTime);
  }

  /** A pull that receives a document the import accepts replaces the local data with the import's. */
  lemma PullOfImportable(w: World, etag: string, payload: Value, device: string, freshId: nat -> string, now: int)
    requires Configured(w.pat, GetSyncState(w.sync, device).state)
    requires payload.Obj? && Get(payload, "data").Obj?
    requires Transfer.ImportData(w.store, Get(payload, "data"), false, freshId, now, true).result.success
    ensures var pulled := Pull(w, Fresh(etag, payload), device, freshId, now, true);
      && pulled.result == Success(true)
      && pulled.world.store == Transfer.ImportData(w.store, Get(payload, "data"), false, freshId, now, true).store
      && View(pulled.world.sync).lastETag == etag
  {
  }

  /**
    After a successful push, a pull whose fetch is answered "not modified"
    sends the ETag the push recorded (when there is one) and changes no
    prompt or setting.
   */
  lemma PushThenNotModified(w: World, etag: string, device: string, pushTime: int, freshId: nat -> string, pullTime: int, writeOk: bool)
    requires Configured(w.pat, GetSyncState(w.sync, device).state)
    requires GetSyncState(w.sync, device).state.deviceId != ""
    ensures var pushed := Push(w, Updated(etag), device, pushTime);
      var pulled := Pull(pushed.world, NotModified, device, freshId, pullTime, writeOk);
      && pulled.sent == Some(FetchRequest(GetSyncState(w.sync, device).state.gistId, if etag != "" then Some(etag) else None))
      && pulled.result == Success(false)
      && pulled.world.store == w.store
      && View(pulled.world.sync).lastETag == etag
  {
    var pushed := Push(w, Updated(etag), device, pushTime);
    var loaded := GetSyncState(w.sync, device);
    var syncing := SaveSyncState(loaded.stored, StatusPatch(Syncing, ""), device);
    SaveThenGet(loaded.stored, StatusPatch(Syncing, ""), device, device);
    SaveThenGet(syncing.stored, SyncedPatch(etag, pushTime), device, device);
  }

  /** A failed pull on page load is never left at the syncing status. */
  lemma InitOnLoadSettles(w: World, resp: FetchResponse, device: string, freshId: nat -> string, now: int, writeOk: bool)
    requires Configured(w.pat, GetSyncState(w.sync, device).state)
    ensures View(InitOnLoad(w, resp, device, freshId, now, writeOk).sync).status != Syncing
  {
  }
}

=== FILE: transfer.dfy ===
/**
  Export, import and import validation of the data script. A document to
  import is a parsed JSON value; the export document is rendered to the same
  form so that exporting and importing can be composed.
 */
module Transfer {
  import opened Common
  import opened JsValues
  import opened Data

  const ExportVersion: string := "1.0.0"

  /** `exportData()`: the prompts, the settings and the export time. */
  datatype ExportDocument = ExportDocument(prompts: seq<Prompt>, settings: Settings, exportTime: int, version: string)

  /**
    `exportData()`. Stored tags are always arrays here, so the per-record
    `tags` normalisation leaves every record as it is.
   */
  function ExportData(store: Store, now: int): (d: ExportDocument)
    ensures var v := ExportValue(d);
      && Get(v, "prompts") == Arr(PromptValues(store.prompts))
      && Get(v, "settings") == SettingsValue(store.settings)
      && Get(v, "exportTime") == Num(now)
      && Get(v, "version") == Str("1.0.0")
  {
    ExportDocument(store.prompts, store.settings, now, ExportVersion)
  }

  /** A stored record as a JSON object, from which every field reads back. */
  function PromptValue(p: Prompt): (v: Value)
    ensures v.Obj? && Truthy(v)
    ensures Get(v, "id") == p.id && Get(v, "createTime") == p.createTime
    ensures Get(v, "title") == Str(p.title) && Get(v, "content") == Str(p.content)
    ensures Get(v, "tags") == StrArr(p.tags) && Get(v, "updateTime") == Num(p.updateTime)
  {
    Obj(map[
      "id" := p.id,
      "title" := Str(p.title),
      "content" := Str(p.content),
      "tags" := StrArr(p.tags),
      "createTime" := p.createTime,
      "updateTime" := Num(p.updateTime)])
  }

  function PromptValues(ps: seq<Prompt>): (vs: seq<Value>)
    ensures |vs| == |ps|
    ensures forall i :: 0 <= i < |ps| ==> vs[i] == PromptValue(ps[i])
  {
    seq(|ps|, i requires 0 <= i < |ps| => PromptValue(ps[i]))
  }

  /** The export document as the JSON object that is written to a file or the remote store. */
  function ExportValue(doc: ExportDocument): (v: Value)
    ensures v.Obj? && Truthy(v)
    ensures Get(v, "prompts") == Arr(PromptValues(doc.prompts))
    ensures Get(v, "settings") == SettingsValue(doc.settings)
    ensures Get(v, "exportTime") == Num(doc.exportTime) && Get(v, "version") == Str(doc.version)
  {
    Obj(map[
      "prompts" := Arr(PromptValues(doc.prompts)),
      "settings" := SettingsValue(doc.settings),
      "exportTime" := Num(doc.exportTime),
      "version" := Str(doc.version)])
  }

  // ---------------------------------------------------------------------
  // importData
  // ---------------------------------------------------------------------

  datatype Stats = Stats(imported: nat, skipped: nat, errors: nat)

  datatype ImportResult = ImportResult(success: bool, message: string, stats: Stats)

  /** The result of an import and the store it leaves behind. */
  datatype Imported = Imported(result: ImportResult, store: Store)

  const InvalidFormatMessage: string := "无效的数据格式"
  const SaveFailedMessage: string := "保存导入的提示词失败"

  function CompletedMessage(stats: Stats): string {
    "导入完成：成功" + NatToString(stats.imported)
    + "条，跳过" + NatToString(stats.skipped)
    + "条，错误" + NatToString(stats.errors) + "条"
  }

  /** What happens to one incoming record. */
  datatype Verdict = Invalid | Duplicate | Accepted(prompt: Prompt)

  /** Some record of `working` has exactly this title. */
  predicate TitleTaken(title: Value, working: seq<Prompt>) {
    exists p :: p in working && Str(p.title) == title
  }

  function IdSet(ps: seq<Prompt>): set<Value> {
    set p | p in ps :: p.id
  }

  /** The string entries of `items` that are preset tags, in order. */
  function PresetNames(items: seq<Value>, preset: seq<string>): (r: seq<string>)
    ensures forall t :: t in r <==> Str(t) in items && t in preset
    ensures Subseq(StrArr(r).items, items)
    ensures forall t :: multiset(r)[t] == if t in preset then multiset(items)[Str(t)] else 0
  {
    if |items| == 0 then []
    else
      var rest := PresetNames(items[1..], preset);
      assert forall t :: Str(t) in items <==> Str(t) == items[0] || Str(t) in items[1..];
      var r := if items[0].Str? && items[0].s in preset then [items[0].s] + rest else rest;
      PresetNamesStep(items, preset, rest, r);
      r
  }

  /** One step of `PresetNames`: the order and the counts carry over from the tail. */
  lemma PresetNamesStep(items: seq<Value>, preset: seq<string>, rest: seq<string>, r: seq<string>)
    requires |items| > 0
    requires Subseq(StrArr(rest).items, items[1..])
    requires forall t :: multiset(rest)[t] == if t in preset then multiset(items[1..])[Str(t)] else 0
    requires r == if items[0].Str? && items[0].s in preset then [items[0].s] + rest else rest
    ensures Subseq(StrArr(r).items, items)
    ensures forall t :: multiset(r)[t] == if t in preset then multiset(items)[Str(t)] else 0
  {
    if items[0].Str? && items[0].s in preset {
      StrArrCons(items[0].s, rest);
      SubseqCons(items[0], StrArr(rest).items, items);
    } else {
      SubseqDropHead(StrArr(rest).items, items);
    }
    PresetCountsStep(items, preset, rest, r);
  }

  lemma StrArrCons(h: string, rest: seq<string>)
    ensures StrArr([h] + rest).items == [Str(h)] + StrArr(rest).items
  {
    var y := StrArr([h] + rest).items;
    var x := StrArr(rest).items;
    forall i | 1 <= i < |y|
      ensures y[i] == x[i - 1]
    {
      assert ([h] + rest)[i] == rest[i - 1];
    }
  }

  lemma PresetCountsStep(items: seq<Value>, preset: seq<string>, rest: seq<string>, r: seq<string>)
    requires |items| > 0
    requires forall t :: multiset(rest)[t] == if t in preset then multiset(items[1..])[Str(t)] else 0
    requires r == if items[0].Str? && items[0].s in preset then [items[0].s] + rest else rest
    ensures forall t :: multiset(r)[t] == if t in preset then multiset(items)[Str(t)] else 0
  {
    if items[0].Str? && items[0].s in preset {
      var h := items[0].s;
      forall t
        ensures multiset(r)[t] == if t in preset then multiset(items)[Str(t)] else 0
      {
        CountOfCons(items, Str(t));
        assert multiset(r)[t] == (if h == t then 1 else 0) + multiset(rest)[t];
      }
    } else {
      forall t
        ensures multiset(r)[t] == if t in preset then multiset(items)[Str(t)] else 0
      {
        CountOfCons(items, Str(t));
      }
    }
  }

  /** The count of `x` in a non-empty sequence: its head's share plus the tail's. */
  lemma CountOfCons<T>(s: seq<T>, x: T)
    requires |s| > 0
    ensures multiset(s)[x] == (if s[0] == x then 1 else 0) + multiset(s[1..])[x]
  {
    assert s == [s[0]] + s[1..];
  }

  /** Prepending the same head to both sides keeps a subsequence. */
  lemma SubseqCons<T>(h: T, x: seq<T>, s: seq<T>)
    requires |s| > 0 && s[0] == h && Subseq(x, s[1..])
    ensures Subseq([h] + x, s)
  {
    assert ([h] + x)[1..] == x;
  }

  /** `Array.isArray(tags) ? tags.filter(t => preset.includes(t)) : []`. */
  function ImportTags(tags: Value, preset: seq<string>): (r: seq<string>)
    ensures forall t :: t in r ==> t in preset
    ensures tags.Arr? ==> forall t :: t in r <==> Str(t) in tags.items && t in preset
    ensures tags.Arr? ==> Subseq(StrArr(r).items, tags.items)
    ensures tags.Arr? ==> forall t :: multiset(r)[t] == if t in preset then multiset(tags.items)[Str(t)] else 0
    ensures !tags.Arr? ==> r == []
  {
    if tags.Arr? then PresetNames(tags.items, preset) else []
  }

  /**
    The record built from an incoming element that passed the checks: title
    and content trimmed, tags restricted to the preset ones, a truthy id and
    creation time kept and otherwise replaced by a fresh id and the current
    time, and the current time as modification time.
   */
  function Admit(el: Value, preset: seq<string>, freshId: string, now: int): (p: Prompt)
    requires Get(el, "title").Str? && Get(el, "content").Str?
    ensures p.title == Trim(Get(el, "title").s) && p.content == Trim(Get(el, "content").s)
    ensures FreshRecord(p, preset, now)
    ensures Truthy(Get(el, "id")) ==> p.id == Get(el, "id")
    ensures !Truthy(Get(el, "id")) ==> p.id == Str(freshId)
    ensures Truthy(Get(el, "createTime")) ==> p.createTime == Get(el, "createTime")
    ensures !Truthy(Get(el, "createTime")) ==> p.createTime == Num(now)
  {
    var id := Get(el, "id");
    var created := Get(el, "createTime");
    Prompt(
      if Truthy(id) then id else Str(freshId),
      Trim(Get(el, "title").s),
      Trim(Get(el, "content").s),
      ImportTags(Get(el, "tags"), preset),
      if Truthy(created) then created else Num(now),
      now)
  }

  /**
    The decision for one incoming record `el`, given the records kept so far
    and the id set built before the loop. A falsy title or content is an
    error; an id in the set or a title already present is a duplicate; a
    title or content that is not a string makes `trim` throw, which is
    counted as an error too.
   */
  function Classify(el: Value, working: seq<Prompt>, ids: set<Value>, preset: seq<string>, freshId: string, now: int): (v: Verdict)
    ensures v.Accepted? <==>
      && IsText(Get(el, "title")) && IsText(Get(el, "content"))
      && Get(el, "id") !in ids && !TitleTaken(Get(el, "title"), working)
    ensures v.Accepted? ==> v.prompt == Admit(el, preset, freshId, now)
    ensures v.Duplicate? <==>
      && Truthy(Get(el, "title")) && Truthy(Get(el, "content"))
      && (Get(el, "id") in ids || TitleTaken(Get(el, "title"), working))
  {
    var title := Get(el, "title");
    var content := Get(el, "content");
    if !Truthy(title) || !Truthy(content) then Invalid
    else if Get(el, "id") in ids || TitleTaken(title, working) then Duplicate
    else if !title.Str? || !content.Str? then Invalid
    else Accepted(Admit(el, preset, freshId, now))
  }

  /** What every record the import adds satisfies: preset tags only, stamped with the import time. */
  predicate FreshRecord(p: Prompt, preset: seq<string>, now: int) {
    (forall t :: t in p.tags ==> t in preset) && p.updateTime == now
  }

  /**
    The records a run of the import loop accepted, newest first, and the
    tallies. The collection the loop works on is `added + start`.
   */
  datatype Batch = Batch(added: seq<Prompt>, stats: Stats)

  /**
    The import loop over `items`, starting from `start` with the id set
    `ids` computed once beforehand. Each accepted record is put in front, so
    the accepted records end up in reverse arrival order before `start`.
    `freshId(i)` is the id `generateId` would produce for element `i`.
   */
  function Ingest(items: seq<Value>, start: seq<Prompt>, ids: set<Value>, preset: seq<string>, freshId: nat -> string, now: int): (b: Batch)
    ensures b.stats.imported + b.stats.skipped + b.stats.errors == |items|
    ensures |b.added| == b.stats.imported
    ensures forall p :: p in b.added ==> FreshRecord(p, preset, now)
    decreases |items|
  {
    if |items| == 0 then Batch([], Stats(0, 0, 0))
    else
      var n := |items| - 1;
      var b := Ingest(items[..n], start, ids, preset, freshId, now);
      Tally(b, Classify(items[n], b.added + start, ids, preset, freshId(n), now))
  }

  /** One step of the loop: an accepted record goes in front, the others are counted. */
  function Tally(b: Batch, v: Verdict): (r: Batch)
    ensures r.stats.imported + r.stats.skipped + r.stats.errors == b.stats.imported + b.stats.skipped + b.stats.errors + 1
    ensures v.Accepted? ==> r.added == [v.prompt] + b.added && r.stats.imported == b.stats.imported + 1
    ensures v.Duplicate? ==> r.added == b.added && r.stats == b.stats.(skipped := b.stats.skipped + 1)
    ensures v.Invalid? ==> r.added == b.added && r.stats == b.stats.(errors := b.stats.errors + 1)
  {
    var st := b.stats;
    match v
    case Invalid => Batch(b.added, Stats(st.imported, st.skipped, st.errors + 1))
    case Duplicate => Batch(b.added, Stats(st.imported, st.skipped + 1, st.errors))
    case Accepted(p) => Batch([p] + b.added, Stats(st.imported + 1, st.skipped, st.errors))
  }

  /** The loop over `items` followed by one more element `x`. */
  lemma IngestSnoc(items: seq<Value>, x: Value, start: seq<Prompt>, ids: set<Value>, preset: seq<string>, freshId: nat -> string, now: int)
    ensures var b := Ingest(items, start, ids, preset, freshId, now);
      Ingest(items + [x], start, ids, preset, freshId, now)
      == Tally(b, Classify(x, b.added + start, ids, preset, freshId(|items|), now))
  {
    assert (items + [x])[..|items|] == items;
  }

  /** The collection an import writes and the tallies of its loop. */
  datatype Merged = Merged(prompts: seq<Prompt>, stats: Stats)

  /**
    The loop of `importData` with its starting point: the stored collection
    when merging, an empty one otherwise; the id set is that of the start.
   */
  function ImportCollection(current: seq<Prompt>, items: seq<Value>, merge: bool, preset: seq<string>, freshId: nat -> string, now: int): (m: Merged)
    ensures m.stats.imported + m.stats.skipped + m.stats.errors == |items|
    ensures m.stats.imported <= |m.prompts|
    ensures merge ==> m.prompts[m.stats.imported..] == current
    ensures !merge ==> |m.prompts| == m.stats.imported
    ensures forall p :: p in m.prompts[..m.stats.imported] ==> FreshRecord(p, preset, now)
  {
    var start := if merge then current else [];
    var b := Ingest(items, start, IdSet(start), preset, freshId, now);
    assert (b.added + start)[..|b.added|] == b.added;
    assert (b.added + start)[|b.added|..] == start;
    Merged(b.added + start, b.stats)
  }

  /** A failed import: nothing changes and every tally is zero. */
  function Failed(store: Store, message: string): Imported {
    Imported(ImportResult(false, message, Stats(0, 0, 0)), store)
  }

  /**
    The settings step of an import: without merging, a truthy `settings`
    value is saved (its own success is ignored).
   */
  function ImportSettings(current: Settings, doc: Value, merge: bool, writeOk: bool): (r: Settings)
    ensures merge || !Truthy(Get(doc, "settings")) || !writeOk ==> r == current
    ensures !merge && Truthy(Get(doc, "settings")) && writeOk ==>
      r == SettingsFromValue(Get(doc, "settings")) && NormalTags(r.presetTags)
  {
    var settings := Get(doc, "settings");
    if !merge && Truthy(settings) then SaveSettings(current, settings, writeOk).settings else current
  }

  /**
    `importData(doc, merge)`. Without merging the loop starts from an empty
    collection; with merging it starts from the stored one. When `prompts`
    is not an array the stored collection is left alone and the import still
    succeeds. A failed write of the collection fails the whole import with
    zero tallies.
   */
  function ImportData(store: Store, doc: Value, merge: bool, freshId: nat -> string, now: int, writeOk: bool): (r: Imported)
    ensures !r.result.success ==> r.store == store && r.result.stats == Stats(0, 0, 0)
    ensures r.result.success <==> Truthy(doc) && IsObjectLike(doc) && (Get(doc, "prompts").Arr? ==> writeOk)
    ensures r.result.success && Get(doc, "prompts").Arr? ==>
      r.result.stats.imported + r.result.stats.skipped + r.result.stats.errors == |Get(doc, "prompts").items|
    ensures r.result.success && !Get(doc, "prompts").Arr? ==>
      r.store.prompts == store.prompts && r.result.stats == Stats(0, 0, 0)
    ensures r.result.success && merge ==>
      && r.result.stats.imported <= |r.store.prompts|
      && r.store.prompts[r.result.stats.imported..] == store.prompts
      && r.store.settings == store.settings
    ensures r.result.success && !merge && Get(doc, "prompts").Arr? ==>
      |r.store.prompts| == r.result.stats.imported
    ensures r.result.success ==> r.result.stats.imported <= |r.store.prompts|
    ensures r.result.success ==> forall p :: p in r.store.prompts[..r.result.stats.imported] ==>
      FreshRecord(p, store.settings.presetTags, now)
    ensures r.result.success && !merge && Truthy(Get(doc, "settings")) && writeOk ==>
      r.store.settings == SettingsFromValue(Get(doc, "settings"))
    ensures !(r.result.success && !merge && Truthy(Get(doc, "settings")) && writeOk) ==>
      r.store.settings == store.settings
  {
    if !Truthy(doc) || !IsObjectLike(doc) then Failed(store, InvalidFormatMessage)
    else
      var ps := Get(doc, "prompts");
      var settings := ImportSettings(store.settings, doc, merge, writeOk);
      if ps.Arr? then
        var m := ImportCollection(store.prompts, ps.items, merge, store.settings.presetTags, freshId, now);
        if !writeOk then Failed(store, SaveFailedMessage)
        else Imported(ImportResult(true, CompletedMessage(m.stats), m.stats), Store(m.prompts, settings))
      else
        var stats := Stats(0, 0, 0);
        Imported(ImportResult(true, CompletedMessage(stats), stats), store.(settings := settings))
  }

  // ---------------------------------------------------------------------
  // validateImportData
  // ---------------------------------------------------------------------

  datatype Validation = Validation(valid: bool, message: string)

  /** A record that `validateImportData` accepts: truthy, with truthy title and content. */
  predicate RecordLooksValid(el: Value) {
    Truthy(el) && Truthy(Get(el, "title")) && Truthy(Get(el, "content"))
  }

  /**
    `validateImportData(doc)`: valid exactly for an object whose `prompts` is
    a non-empty array of records with truthy title and content; the message
    of the last check counts the offending records.
   */
  function ValidateImportData(doc: Value): (r: Validation)
    ensures r.valid <==>
      && doc.Obj?
      && Get(doc, "prompts").Arr?
      && |Get(doc, "prompts").items| > 0
      && forall i :: 0 <= i < |Get(doc, "prompts").items| ==> RecordLooksValid(Get(doc, "prompts").items[i])
  {
    if !Truthy(doc) || !IsObjectLike(doc) then Validation(false, "数据格式无效")
    else
      var ps := Get(doc, "prompts");
      if !ps.Arr? then Validation(false, "缺少有效的提示词数据")
      else if |ps.items| == 0 then Validation(false, "没有可导入的提示词")
      else
        var bad := Filter(ps.items, (el: Value) => !RecordLooksValid(el));
        if |bad| > 0 then
          assert bad[0] in ps.items;
          Validation(false, "发现" + NatToString(|bad|) + "个无效的提示词（缺少标题或内容）")
        else
          assert forall i :: 0 <= i < |ps.items| ==> RecordLooksValid(ps.items[i]) by {
            forall i | 0 <= i < |ps.items| ensures RecordLooksValid(ps.items[i]) {
              assert ps.items[i] in ps.items;
            }
          }
          Validation(true, "数据格式有效")
  }

  // ---------------------------------------------------------------------
  // Export followed by import
  // ---------------------------------------------------------------------

  /** Every record stamped with the time `now` as its modification time. */
  function Restamp(ps: seq<Prompt>, now: int): (r: seq<Prompt>)
    ensures |r| == |ps|
    ensures forall i :: 0 <= i < |ps| ==> r[i] == ps[i].(updateTime := now)
  {
    seq(|ps|, i requires 0 <= i < |ps| => ps[i].(updateTime := now))
  }

  /** Titles are pairwise different. */
  predicate DistinctTitles(ps: seq<Prompt>) {
    forall i, j :: 0 <= i < j < |ps| ==> ps[i].title != ps[j].title
  }

  /**
    A collection that an import reproduces record by record: titles and
    contents are non-empty and already trimmed, ids and creation times are
    truthy (so they are kept), titles are distinct, and every tag is one of
    `preset`.
   */
  predicate Restorable(ps: seq<Prompt>, preset: seq<string>) {
    && DistinctTitles(ps)
    && forall i :: 0 <= i < |ps| ==>
      && ps[i].title != "" && IsTrimmed(ps[i].title)
      && ps[i].content != "" && IsTrimmed(ps[i].content)
      && Truthy(ps[i].id) && Truthy(ps[i].createTime)
      && (forall t :: t in ps[i].tags ==> t in preset)
  }

  /** Keeping the preset tags of a tag list that has only preset tags keeps it whole. */
  lemma {:induction false} PresetNamesOfStrings(tags: seq<string>, preset: seq<string>)
    requires forall t :: t in tags ==> t in preset
    ensures PresetNames(StrArr(tags).items, preset) == tags
  {
    if |tags| > 0 {
      PresetNamesOfStringsStep(tags, preset);
      PresetNamesOfStrings(tags[1..], preset);
      assert tags == [tags[0]] + tags[1..];
    }
  }

  lemma PresetNamesOfStringsStep(tags: seq<string>, preset: seq<string>)
    requires |tags| > 0 && tags[0] in preset
    ensures PresetNames(StrArr(tags).items, preset) == [tags[0]] + PresetNames(StrArr(tags[1..]).items, preset)
  {
    var items := StrArr(tags).items;
    assert items[0] == Str(tags[0]);
    assert items[1..] == StrArr(tags[1..]).items;
  }

  /** The record admitted from an exported record is that record, restamped. */
  lemma AdmitExported(p: Prompt, preset: seq<string>, freshId: string, now: int)
    requires IsTrimmed(p.title) && IsTrimmed(p.content)
    requires Truthy(p.id) && Truthy(p.createTime)
    requires forall t :: t in p.tags ==> t in preset
    ensures Admit(PromptValue(p), preset, freshId, now) == p.(updateTime := now)
  {
    TrimOfTrimmed(p.title);
    TrimOfTrimmed(p.content);
    PresetNamesOfStrings(p.tags, preset);
  }

  /** The import verdict for an exported record whose title is not yet present. */
  lemma ClassifyExported(p: Prompt, working: seq<Prompt>, preset: seq<string>, freshId: string, now: int)
    requires p.title != "" && IsTrimmed(p.title) && p.content != "" && IsTrimmed(p.content)
    requires Truthy(p.id) && Truthy(p.createTime)
    requires forall t :: t in p.tags ==> t in preset
    requires forall q :: q in working ==> q.title != p.title
    ensures Classify(PromptValue(p), working, {}, preset, freshId, now) == Accepted(p.(updateTime := now))
  {
    var el := PromptValue(p);
    assert !TitleTaken(Get(el, "title"), working);
    AdmitExported(p, preset, freshId, now);
  }

  lemma RestampedTitlesAvoid(ps: seq<Prompt>, now: int, title: string)
    requires forall i :: 0 <= i < |ps| ==> ps[i].title != title
    ensures forall q :: q in Reverse(Restamp(ps, now)) ==> q.title != title
  {
    var r := Restamp(ps, now);
    var w := Reverse(r);
    forall q | q in w ensures q.title != title {
      var j :| 0 <= j < |w| && w[j] == q;
      assert w[j] == r[|r| - 1 - j];
    }
  }

  lemma RestorablePrefix(ps: seq<Prompt>, preset: seq<string>)
    requires |ps| > 0 && Restorable(ps, preset)
    ensures Restorable(ps[..|ps| - 1], preset)
    ensures forall i :: 0 <= i < |ps| - 1 ==> ps[i].title != ps[|ps| - 1].title
    ensures var p := ps[|ps| - 1];
      && p.title != "" && IsTrimmed(p.title) && p.content != "" && IsTrimmed(p.content)
      && Truthy(p.id) && Truthy(p.createTime)
      && (forall t :: t in p.tags ==> t in preset)
  {
  }

  lemma RestampReverseLast(ps: seq<Prompt>, now: int)
    requires |ps| > 0
    ensures Reverse(Restamp(ps, now)) == [ps[|ps| - 1].(updateTime := now)] + Reverse(Restamp(ps[..|ps| - 1], now))
  {
    var r := Restamp(ps, now);
    assert r[..|r| - 1] == Restamp(ps[..|ps| - 1], now);
  }

  lemma PromptValuesSnoc(ps: seq<Prompt>)
    requires |ps| > 0
    ensures PromptValues(ps) == PromptValues(ps[..|ps| - 1]) + [PromptValue(ps[|ps| - 1])]
  {
  }

  /** Importing exported records into an empty collection accepts all of them, newest last in, first out. */
  lemma {:induction false} IngestExported(ps: seq<Prompt>, preset: seq<string>, freshId: nat -> string, now: int)
    requires Restorable(ps, preset)
    ensures Ingest(PromptValues(ps), [], {}, preset, freshId, now) == Batch(Reverse(Restamp(ps, now)), Stats(|ps|, 0, 0))
    decreases |ps|
  {
    if |ps| > 0 {
      var n := |ps| - 1;
      var init := ps[..n];
      RestorablePrefix(ps, preset);
      IngestExported(init, preset, freshId, now);
      var working := Reverse(Restamp(init, now));
      LastExportedAccepted(ps, preset, freshId(n), now);
      IngestExportedStep(ps, working, preset, freshId, now);
      RestampReverseLast(ps, now);
    }
  }

  /** The last exported record is accepted after the records before it. */
  lemma LastExportedAccepted(ps: seq<Prompt>, preset: seq<string>, freshId: string, now: int)
    requires |ps| > 0 && Restorable(ps, preset)
    ensures var last := ps[|ps| - 1];
      Classify(PromptValue(last), Reverse(Restamp(ps[..|ps| - 1], now)), {}, preset, freshId, now) == Accepted(last.(updateTime := now))
  {
    var init := ps[..|ps| - 1];
    var last := ps[|ps| - 1];
    RestorablePrefix(ps, preset);
    forall i | 0 <= i < |init|
      ensures init[i].title != last.title
    {
      assert init[i] == ps[i];
    }
    RestampedTitlesAvoid(init, now, last.title);
    ClassifyExported(last, Reverse(Restamp(init, now)), preset, freshId, now);
  }

  /** One more accepted exported record on top of the import of the ones before it. */
  lemma IngestExportedStep(ps: seq<Prompt>, working: seq<Prompt>, preset: seq<string>, freshId: nat -> string, now: int)
    requires |ps| > 0
    requires Ingest(PromptValues(ps[..|ps| - 1]), [], {}, preset, freshId, now) == Batch(working, Stats(|ps| - 1, 0, 0))
    requires var last := ps[|ps| - 1];
      Classify(PromptValue(last), working, {}, preset, freshId(|ps| - 1), now) == Accepted(last.(updateTime := now))
    ensures Ingest(PromptValues(ps), [], {}, preset, freshId, now) == Batch([ps[|ps| - 1].(updateTime := now)] + working, Stats(|ps|, 0, 0))
  {
    var n := |ps| - 1;
    PromptValuesSnoc(ps);
    IngestAccepts(PromptValues(ps[..n]), PromptValue(ps[n]), working, ps[n].(updateTime := now), preset, freshId, now);
  }

  /** An accepted element after a run of accepted ones goes in front of them. */
  lemma IngestAccepts(items: seq<Value>, x: Value, working: seq<Prompt>, q: Prompt, preset: seq<string>, freshId: nat -> string, now: int)
    requires Ingest(items, [], {}, preset, freshId, now) == Batch(working, Stats(|items|, 0, 0))
    requires Classify(x, working, {}, preset, freshId(|items|), now) == Accepted(q)
    ensures Ingest(items + [x], [], {}, preset, freshId, now) == Batch([q] + working, Stats(|items| + 1, 0, 0))
  {
    IngestSnoc(items, x, [], {}, preset, freshId, now);
    assert working + [] == working;
  }

  /**
    Exporting a store and importing the document without merging, into a
    store whose preset tags cover every exported tag, succeeds with every
    record imported; the collection comes back in reverse order, each record
    stamped with the import time, and the settings come back unchanged.
   */
  lemma ImportRoundTrip(source: Store, target: Store, exportTime: int, freshId: nat -> string, now: int)
    requires Restorable(source.prompts, target.settings.presetTags)
    requires NormalTags(source.settings.presetTags)
    ensures var r := ImportData(target, ExportValue(ExportData(source, exportTime)), false, freshId, now, true);
      && r.result.success
      && r.result.stats == Stats(|source.prompts|, 0, 0)
      && r.store.prompts == Reverse(Restamp(source.prompts, now))
      && r.store.settings == source.settings
  {
    var doc := ExportValue(ExportData(source, exportTime));
    ReplacingImport(target, doc, freshId, now);
    IngestExported(source.prompts, target.settings.presetTags, freshId, now);
    SettingsRoundTrip(source.settings);
  }

  /** An import without merging of a document with a `prompts` array, when every write succeeds. */
  lemma ReplacingImport(store: Store, doc: Value, freshId: nat -> string, now: int)
    requires doc.Obj? && Get(doc, "prompts").Arr?
    ensures var b := Ingest(Get(doc, "prompts").items, [], {}, store.settings.presetTags, freshId, now);
      ImportData(store, doc, false, freshId, now, true)
      == Imported(ImportResult(true, CompletedMessage(b.stats), b.stats), Store(b.added, ImportSettings(store.settings, doc, false, true)))
  {
    var b := Ingest(Get(doc, "prompts").items, [], {}, store.settings.presetTags, freshId, now);
    assert IdSet([]) == {};
    assert b.added + [] == b.added;
    assert ImportCollection(store.prompts, Get(doc, "prompts").items, false, store.settings.presetTags, freshId, now) == Merged(b.added, b.stats);
  }

  /** An incoming record with an id, a title and a content and nothing else. */
  function Incoming(id: string, title: string, content: string): (el: Value)
    ensures Get(el, "id") == Str(id) && Get(el, "title") == Str(title) && Get(el, "content") == Str(content)
    ensures Get(el, "tags") == Undefined && Get(el, "createTime") == Undefined
  {
    Obj(map["id" := Str(id), "title" := Str(title), "content" := Str(content)])
  }

  /** How an incoming record built by `Incoming` is accepted into a collection without that title. */
  lemma ClassifyIncoming(id: string, title: string, content: string, working: seq<Prompt>, preset: seq<string>, freshId: string, now: int)
    requires id != "" && title != "" && content != ""
    requires forall q :: q in working ==> Str(q.title) != Str(title)
    ensures Classify(Incoming(id, title, content), working, {}, preset, freshId, now)
      == Accepted(Prompt(Str(id), Trim(title), Trim(content), [], Num(now), now))
  {
    var el := Incoming(id, title, content);
    assert !TitleTaken(Get(el, "title"), working);
    ClassifyAccepts(el, working, preset, freshId, now);
    AdmitPlain(el, id, preset, freshId, now);
  }

  /** A record with text title and content, a new id and a free title is accepted as `Admit` builds it. */
  lemma ClassifyAccepts(el: Value, working: seq<Prompt>, preset: seq<string>, freshId: string, now: int)
    requires IsText(Get(el, "title")) && IsText(Get(el, "content"))
    requires !TitleTaken(Get(el, "title"), working)
    ensures Classify(el, working, {}, preset, freshId, now) == Accepted(Admit(el, preset, freshId, now))
  {
  }

  /** A record carrying an id but neither tags nor a creation time. */
  lemma AdmitPlain(el: Value, id: string, preset: seq<string>, freshId: string, now: int)
    requires Get(el, "title").Str? && Get(el, "content").Str?
    requires id != "" && Get(el, "id") == Str(id)
    requires Get(el, "tags") == Undefined && Get(el, "createTime") == Undefined
    ensures Admit(el, preset, freshId, now)
      == Prompt(Str(id), Trim(Get(el, "title").s), Trim(Get(el, "content").s), [], Num(now), now)
  {
    var p := Admit(el, preset, freshId, now);
    assert p.tags == [] by {
      assert p.tags == ImportTags(Undefined, preset);
    }
    assert p.id == Str(id) && p.createTime == Num(now) && p.updateTime == now;
  }

  /**
    The id set is built once before the loop, so it does not see the records
    accepted earlier in the same import: a record whose id an earlier record
    of the batch already carries is accepted, and the collection then holds
    two records under one id.
   */
  lemma ImportAdmitsDuplicateIds(earlier: Prompt, id: string, title: string, content: string, preset: seq<string>, freshId: string, now: int)
    requires id != "" && title != "" && content != ""
    requires earlier.id == Str(id) && earlier.title != title
    ensures var v := Classify(Incoming(id, title, content), [earlier], {}, preset, freshId, now);
      v.Accepted? && v.prompt.id == earlier.id
  {
    ClassifyIncoming(id, title, content, [earlier], preset, freshId, now);
  }

  /**
    The title check compares the incoming title before trimming with the
    titles already present, which are trimmed: a title that differs from one
    of them only by a leading blank is accepted, and the collection then
    holds two records with one title.
   */
  lemma ImportAdmitsDuplicateTitles(earlier: Prompt, blank: char, id: string, content: string, preset: seq<string>, freshId: string, now: int)
    requires IsSpace(blank) && id != "" && content != ""
    requires earlier.title != "" && IsTrimmed(earlier.title)
    ensures var v := Classify(Incoming(id, [blank] + earlier.title, content), [earlier], {}, preset, freshId, now);
      v.Accepted? && v.prompt.title == earlier.title
  {
    var title := [blank] + earlier.title;
    assert |title| != |earlier.title|;
    ClassifyIncoming(id, title, content, [earlier], preset, freshId, now);
    TrimDropsLeadingSpace(blank, earlier.title);
    TrimOfTrimmed(earlier.title);
  }

  /** Every incoming title that is a string is already trimmed. */
  predicate TrimmedTitles(items: seq<Value>) {
    forall i :: 0 <= i < |items| && Get(items[i], "title").Str? ==> IsTrimmed(Get(items[i], "title").s)
  }

  /**
    When every incoming title is a string that is already trimmed, the loop
    keeps titles distinct: an accepted title is new to the working collection.
   */
  lemma {:induction false} IngestKeepsTitlesDistinct(items: seq<Value>, start: seq<Prompt>, ids: set<Value>, preset: seq<string>, freshId: nat -> string, now: int)
    requires DistinctTitles(start)
    requires TrimmedTitles(items)
    ensures DistinctTitles(Ingest(items, start, ids, preset, freshId, now).added + start)
    decreases |items|
  {
    if |items| == 0 {
      assert Ingest(items, start, ids, preset, freshId, now).added + start == start;
    } else {
      var n := |items| - 1;
      var b := Ingest(items[..n], start, ids, preset, freshId, now);
      TrimmedTitlesSplit(items);
      IngestKeepsTitlesDistinct(items[..n], start, ids, preset, freshId, now);
      StepKeepsTitlesDistinct(items[n], b, start, ids, preset, freshId(n), now);
      assert Ingest(items, start, ids, preset, freshId, now) == Tally(b, Classify(items[n], b.added + start, ids, preset, freshId(n), now));
    }
  }

  lemma TrimmedTitlesSplit(items: seq<Value>)
    requires |items| > 0 && TrimmedTitles(items)
    ensures TrimmedTitles(items[..|items| - 1])
    ensures Get(items[|items| - 1], "title").Str? ==> IsTrimmed(Get(items[|items| - 1], "title").s)
  {
  }

  lemma StepKeepsTitlesDistinct(el: Value, b: Batch, start: seq<Prompt>, ids: set<Value>, preset: seq<string>, freshId: string, now: int)
    requires DistinctTitles(b.added + start)
    requires Get(el, "title").Str? ==> IsTrimmed(Get(el, "title").s)
    ensures DistinctTitles(Tally(b, Classify(el, b.added + start, ids, preset, freshId, now)).added + start)
  {
    var working := b.added + start;
    var v := Classify(el, working, ids, preset, freshId, now);
    var r := Tally(b, v);
    if v.Accepted? {
      TitleIsNew(el, working, ids, preset, freshId, now);
      PrependKeepsTitlesDistinct(v.prompt, working);
      assert r.added + start == [v.prompt] + working;
    } else {
      assert r.added + start == working;
    }
  }

  /** A record accepted with a title that arrived trimmed has a title the working collection lacks. */
  lemma TitleIsNew(el: Value, working: seq<Prompt>, ids: set<Value>, preset: seq<string>, freshId: string, now: int)
    requires Get(el, "title").Str? ==> IsTrimmed(Get(el, "title").s)
    requires Classify(el, working, ids, preset, freshId, now).Accepted?
    ensures forall q :: q in working ==> q.title != Classify(el, working, ids, preset, freshId, now).prompt.title
  {
    var title := Get(el, "title");
    TrimOfTrimmed(title.s);
  }

  lemma PrependKeepsTitlesDistinct(p: Prompt, working: seq<Prompt>)
    requires DistinctTitles(working)
    requires forall q :: q in working ==> q.title != p.title
    ensures DistinctTitles([p] + working)
  {
    var w := [p] + working;
    forall i, j | 0 <= i < j < |w| ensures w[i].title != w[j].title {
      assert w[j] == working[j - 1];
      if i > 0 {
        assert w[i] == working[i - 1];
      }
    }
  }

  /** Every record carries a title and content that are non-empty strings. */
  predicate AllText(items: seq<Value>) {
    forall i :: 0 <= i < |items| ==> IsText(Get(items[i], "title")) && IsText(Get(items[i], "content"))
  }

  lemma {:induction false} IngestOfTextHasNoErrors(items: seq<Value>, start: seq<Prompt>, ids: set<Value>, preset: seq<string>, freshId: nat -> string, now: int)
    requires AllText(items)
    ensures Ingest(items, start, ids, preset, freshId, now).stats.errors == 0
    decreases |items|
  {
    if |items| > 0 {
      var n := |items| - 1;
      assert AllText(items[..n]);
      IngestOfTextHasNoErrors(items[..n], start, ids, preset, freshId, now);
      assert IsText(Get(items[n], "title")) && IsText(Get(items[n], "content"));
    }
  }

  /**
    A document that validation accepts, whose titles and contents are all
    strings, imports without errors when the collection can be written; every
    record is either imported or skipped as a duplicate.
   */
  lemma ValidThenImportHasNoErrors(store: Store, doc: Value, merge: bool, freshId: nat -> string, now: int)
    requires ValidateImportData(doc).valid
    requires forall i :: 0 <= i < |Get(doc, "prompts").items| ==>
      Get(Get(doc, "prompts").items[i], "title").Str? && Get(Get(doc, "prompts").items[i], "content").Str?
    ensures var r := ImportData(store, doc, merge, freshId, now, true);
      && r.result.success
      && r.result.stats.errors == 0
      && r.result.stats.imported + r.result.stats.skipped == |Get(doc, "prompts").items|
  {
    var items := Get(doc, "prompts").items;
    assert AllText(items) by {
      forall i | 0 <= i < |items|
        ensures IsText(Get(items[i], "title")) && IsText(Get(items[i], "content"))
      {
        assert RecordLooksValid(items[i]);
      }
    }
    var start := if merge then store.prompts else [];
    IngestOfTextHasNoErrors(items, start, IdSet(start), store.settings.presetTags, freshId, now);
  }

  /**
    Validation accepts a record whose title is a number, but the import
    cannot trim it and counts an error.
   */
  lemma ValidatedNumberTitleFailsImport(store: Store, freshId: nat -> string, now: int)
    ensures var doc := Obj(map["prompts" := Arr([Obj(map["title" := Num(7), "content" := Str("x")])])]);
      && ValidateImportData(doc).valid
      && ImportData(store, doc, false, freshId, now, true).result.stats == Stats(0, 0, 1)
  {
    var el := Obj(map["title" := Num(7), "content" := Str("x")]);
    var doc := Obj(map["prompts" := Arr([el])]);
    NumberTitleValidates(el, doc);
    ReplacingImport(store, doc, freshId, now);
    assert Get(doc, "prompts").items == [el];
    IngestSingle(el, store.settings.presetTags, freshId, now);
    NumberTitleInvalid(el, store.settings.presetTags, freshId(0), now);
  }

  lemma NumberTitleInvalid(el: Value, preset: seq<string>, id: string, now: int)
    requires el == Obj(map["title" := Num(7), "content" := Str("x")])
    ensures Classify(el, [], {}, preset, id, now) == Invalid
  {
    assert Get(el, "title") == Num(7) && Get(el, "content") == Str("x");
    assert !TitleTaken(Num(7), []);
  }

  lemma NumberTitleValidates(el: Value, doc: Value)
    requires el == Obj(map["title" := Num(7), "content" := Str("x")])
    requires doc == Obj(map["prompts" := Arr([el])])
    ensures ValidateImportData(doc).valid
  {
    assert RecordLooksValid(el);
  }

  /** The import loop over a single element into an empty collection. */
  lemma IngestSingle(x: Value, preset: seq<string>, freshId: nat -> string, now: int)
    ensures Ingest([x], [], {}, preset, freshId, now) == Tally(Batch([], Stats(0, 0, 0)), Classify(x, [], {}, preset, freshId(0), now))
  {
    assert [x][..0] == [];
  }

  /**
    The exported document passes validation exactly when the store holds at
    least one record and every record has a non-empty title and content.
   */
  lemma ExportValidates(store: Store, now: int)
    ensures ValidateImportData(ExportValue(ExportData(store, now))).valid <==>
      && |store.prompts| > 0
      && forall i :: 0 <= i < |store.prompts| ==> store.prompts[i].title != "" && store.prompts[i].content != ""
  {
    var doc := ExportValue(ExportData(store, now));
    var ps := store.prompts;
    assert Get(doc, "prompts") == Arr(PromptValues(ps));
    forall i | 0 <= i < |ps|
      ensures RecordLooksValid(PromptValues(ps)[i]) <==> ps[i].title != "" && ps[i].content != ""
    {
      assert PromptValues(ps)[i] == PromptValue(ps[i]);
    }
  }
}

=== FILE: utils.dfy ===
/**
  The pure helpers of the utility script: text truncation for previews, the
  emptiness test, array deduplication, the relative-time buckets of the time
  formatter, and the shape of generated prompt ids.
 */
module Utils {
  import opened Common
  import opened JsValues

  /** Preview length used when no length is given. */
  const DefaultPreviewLength: int := 50

  const Ellipsis: string := "..."

  /** `text.substring(0, n)`: a negative end is clamped to zero. */
  function ClampedLength(n: int, len: nat): (k: nat)
    ensures k <= len
    ensures n <= 0 ==> k == 0
    ensures 0 <= n <= len ==> k == n
  {
    if n <= 0 then 0 else if n <= len then n else len
  }

  /**
    `truncateText(text, length)`: empty for a falsy or non-string input, the
    text itself when it fits, otherwise its first `length` characters followed
    by an ellipsis.
   */
  function TruncateText(text: Value, length: int): (r: string)
    ensures !(text.Str? && text.s != "") ==> r == ""
    ensures text.Str? && |text.s| <= length ==> r == text.s
    ensures text.Str? && text.s != "" && |text.s| > length ==>
      && |r| == (if length < 0 then 0 else length) + |Ellipsis|
      && r[..|r| - |Ellipsis|] <= text.s
      && r[|r| - |Ellipsis|..] == Ellipsis
  {
    if !Truthy(text) || !text.Str? then ""
    else if |text.s| <= length then text.s
    else text.s[..ClampedLength(length, |text.s|)] + Ellipsis
  }

  /** `isEmpty(v)`: true for falsy values, non-strings and strings that trim to nothing. */
  function IsEmpty(v: Value): (r: bool)
    ensures r <==> !v.Str? || AllSpace(v.s)
  {
    if !Truthy(v) || !v.Str? then true
    else
      TrimEmptyIff(v.s);
      Trim(v.s) == ""
  }

  /**
    `uniqueArray(v)`: `[]` for a non-array, otherwise the elements without
    repetition, each at its first occurrence. Value equality stands for the
    `SameValueZero` comparison of a `Set`, which agrees with it on strings.
   */
  function UniqueArray(v: Value): (r: seq<Value>)
    ensures !v.Arr? ==> r == []
    ensures v.Arr? ==> NoDup(r)
    ensures v.Arr? ==> forall x :: x in r <==> x in v.items
    ensures v.Arr? ==> forall i, j :: 0 <= i < j < |r| ==> FirstIndex(v.items, r[i]) < FirstIndex(v.items, r[j])
  {
    if v.Arr? then
      DedupFirstOrder(v.items);
      Dedup(v.items)
    else []
  }

  // ---------------------------------------------------------------------
  // formatTime
  // ---------------------------------------------------------------------

  const MinuteMs: int := 60000
  const HourMs: int := 3600000
  const DayMs: int := 86400000
  const WeekMs: int := 604800000

  /** The branch `formatTime` takes; the calendar-date text is not modelled. */
  datatype TimeLabel =
    | NoTime
    | JustNow
    | MinutesAgo(minutes: nat)
    | HoursAgo(hours: nat)
    | DaysAgo(days: nat)
    | CalendarDate
  {
    /** The text shown for a relative label. */
    function Text(): string
      requires !CalendarDate?
    {
      match this
      case NoTime => ""
      case JustNow => "刚刚"
      case MinutesAgo(m) => NatToString(m) + "分钟前"
      case HoursAgo(h) => NatToString(h) + "小时前"
      case DaysAgo(d) => NatToString(d) + "天前"
    }
  }

  /**
    `formatTime(timestamp)` evaluated at time `now`. A zero timestamp has no
    label; a timestamp in the future counts as just now.
   */
  function FormatTime(timestamp: int, now: int): (r: TimeLabel)
    ensures r == NoTime <==> timestamp == 0
    ensures r == JustNow <==> timestamp != 0 && now - timestamp < MinuteMs
    ensures r.MinutesAgo? ==>
      (1 <= r.minutes <= 59 && r.minutes * MinuteMs <= now - timestamp < (r.minutes + 1) * MinuteMs)
    ensures r.HoursAgo? ==>
      (1 <= r.hours <= 23 && r.hours * HourMs <= now - timestamp < (r.hours + 1) * HourMs)
    ensures r.DaysAgo? ==>
      (1 <= r.days <= 6 && r.days * DayMs <= now - timestamp < (r.days + 1) * DayMs)
    ensures r == CalendarDate <==> timestamp != 0 && now - timestamp >= WeekMs
    ensures timestamp != 0 && MinuteMs <= now - timestamp < HourMs ==> r.MinutesAgo?
    ensures timestamp != 0 && HourMs <= now - timestamp < DayMs ==> r.HoursAgo?
    ensures timestamp != 0 && DayMs <= now - timestamp < WeekMs ==> r.DaysAgo?
  {
    var diff := now - timestamp;
    if timestamp == 0 then NoTime
    else if diff < MinuteMs then JustNow
    else if diff < HourMs then MinutesAgo(diff / MinuteMs)
    else if diff < DayMs then HoursAgo(diff / HourMs)
    else if diff < WeekMs then DaysAgo(diff / DayMs)
    else CalendarDate
  }

  // ---------------------------------------------------------------------
  // generateId
  // ---------------------------------------------------------------------

  const IdPrefix: string := "prompt_"

  /**
    `generateId()`: the prefix, the clock in base 36 and the base-36 digits of
    a random fraction. Clock and randomness are parameters.
   */
  function GenerateId(clock: nat, randomDigits: string): (r: string)
    ensures |r| > |IdPrefix| + |randomDigits| && r[..|IdPrefix|] == IdPrefix
    ensures r[|r| - |randomDigits|..] == randomDigits
    ensures DigitsValue(r[|IdPrefix|..|r| - |randomDigits|], 36) == clock
  {
    var time := RadixDigits(clock, 36);
    RadixDigitsRoundTrip(clock, 36);
    var r := IdPrefix + time + randomDigits;
    assert r[|IdPrefix|..|r| - |randomDigits|] == time;
    r
  }
}
